=== FILE: README.md ===
# Phalak pages: hash router, viewer state and catalog generators in Dafny

Phalak pages is a static image gallery. Two generator scripts walk an image folder and write
`images.json`: `generate-catalog.js` and its Python port `generate-catalog.py`. `script.js`
loads `images.json` and shows the images in three views:

- category cards;
- a gallery for one category;
- a lightbox over the gallery.

Every view change is mirrored in the URL hash (`#category/<id>`, `#image/<category>/<name>`), so
links can be shared and the browser's back and forward buttons work.

This project models:

- **The hash router** (`Route`, `Uri`). It covers the parser, the two hash builders, and a
  percent-encoder with its decoder.
- **The browser history** (`BrowserHistory`). History is a list of hashes plus a cursor.
  `pushState` drops the forward entries and appends; `replaceState` overwrites the current entry.
- **The catalog store** (`CatalogStore`). This is the flattening of the catalog into
  `allImages` and the lookups into it.
- **The viewer state machine** (`Viewer`, `Cyclic`). The state is the gallery/cards flag, the
  lightbox flag, the current index and the filtered list. Each transition records what it writes
  to history. `HandleRoute` is the route dispatcher used on load and on `popstate`.
- **The input mapping** (`Input`). This covers swipes, keys and a step function over all user
  and browser events.
- **The category card order** (`CardOrder`).
- **Both catalog generators.** Three modules cover them:
  - `CatalogWalk`: which folders are pruned, which files are collected, and how a path becomes
    a category and an image record, for each port.
  - `CatalogBuild`: grouping, dropping `Miscellaneous`, display names and sorting.
  - `Generator`: the whole pipeline. It ties generator output back to the viewer's start-up.

The walk itself is an input: the list of '/'-separated paths below the image root, in the order
the walk visits them. The JavaScript collation order (`localeCompare`) is an abstract total
preorder `le`. Python's `str` order is modelled as code-point order and proved to be a total order.

## Model

| member | source | states |
|---|---|---|
| Route.ParseHashRoute | script.js:44-68 | An empty hash or a bare `#` is home. A hash with neither prefix is home. A category route comes only from a `#category/` hash, and an image route only from an `#image/` hash. A `#category/` hash fails exactly when its rest has a malformed escape; otherwise it gives the category route whose id is the decoded rest. An `#image/` hash whose rest does not split into two parts at '/' is home. One that does fails exactly when either part has a malformed escape; otherwise it gives the image route of the two decoded parts. |
| Route.LowerCaseEscapeParses | script.js:51-53 | A hand-typed `#category/a%2fb` gives the category `a/b`: lower-case hex digits decode too. |
| Route.BarePercentFails | script.js:51-53 | `#category/%` fails, as `decodeURIComponent` throws on a '%' with no digits. |
| Route.CategoryHash | script.js:27-30 | The category hash starts with `#category/` and not with `#image/`. After the prefix it holds no '/'. It is at least as long as the prefix and the id together. |
| Route.ImageHash | script.js:36-42 | The image hash starts with `#image/` and not with `#category/`. After the prefix it splits on '/' into exactly the encoded category and the encoded name. |
| Route.CategoryRoundTrip | script.js:27-30 | Parsing the hash that `updateURLForCategory` builds gives back the same category id. |
| Route.ImageRoundTrip | script.js:36-42 | Parsing the hash that `updateURL` or `updateLightboxImage` builds gives back the same category and name. |
| Route.ImageArityFallsHome | script.js:56-67 | An `#image/` hash whose remainder does not split into exactly two parts is home. |
| Route.PrefixesExclusive | script.js:51-56 | No hash starts with both prefixes, so the order of the two tests does not matter. |
| Route.HomeRoundTrip | script.js:32-34 | The address `updateURLForHome` writes, with an empty hash, parses to home. |
| Uri.DecodeEncode | script.js:27-30 | Percent-decoding undoes percent-encoding for every string. |
| Uri.EncodeIdentity | script.js:38-40 | Encoding leaves a string unchanged exactly when none of its characters needs escaping. |
| Uri.Encode | script.js:38-40 | The encoding never contains '/'. It is never shorter than its input. |
| Uri.Decode | script.js:52 | A text without '%' decodes to itself. Decoding fails only on a text that holds a '%'. A successful decode is two characters shorter for every '%' in the input. The exact failure set is `Uri.DecodeFailsIffMalformed`. |
| Uri.DecodeFailsIffMalformed | script.js:52 | Decoding fails, where `decodeURIComponent` throws `URIError`, exactly when some '%' is not followed by two hex digits of an ASCII code. |
| BrowserHistory.Push | script.js:27-30 | `pushState` moves the cursor one step forward onto the new hash. It drops the entries that were ahead of the cursor and keeps the ones behind it. |
| BrowserHistory.Replace | script.js:259-261 | `replaceState` changes only the current entry. The length and the cursor stay the same. |
| BrowserHistory.Back | script.js:391 | Going back changes no entry. The cursor moves one entry back, unless it is on the first entry. |
| BrowserHistory.Forward | script.js:391 | Going forward changes no entry. The cursor moves one entry on, unless it is on the last entry. |
| BrowserHistory.BackForwardUndo | script.js:391 | Back and forward undo each other. Back after a push returns to the entry that was current before the push. |
| CatalogStore.FlattenCatalog | script.js:89-97 | The nested loops build exactly `Flatten(catalog)`. Its length is the sum of the per-category image counts. |
| CatalogStore.FlattenLength | script.js:89-97 | The flattened list is as long as the per-category counts added up. |
| CatalogStore.FlattenOwners | script.js:89-97 | Every flattened image is tagged with the id of a category in the catalog. |
| CatalogStore.IndexOf | script.js:76-80 | `findIndex` returns the first position matching the category and name, or -1 exactly when there is none. |
| CatalogStore.FindImage | script.js:70-74 | `find` returns a matching image from `allImages`. It returns nothing exactly when no image matches. |
| CatalogStore.IndexInFiltered | script.js:76-80 | The index of an image in the filtered list is its first occurrence: that entry matches, no earlier entry does, and the result is -1 exactly when no entry does. |
| CatalogStore.FindCategory | script.js:409 | The catalog lookup returns a category with the requested id. It returns nothing exactly when there is none. |
| CatalogStore.FilterByCategory | script.js:161 | The filtered list holds exactly the images of `allImages` with the chosen category. |
| CatalogStore.FilterAppend | script.js:161 | Filtering distributes over concatenation, so the relative order of `allImages` is kept. |
| CatalogStore.SelectionIsCategory | script.js:89-97 | With distinct category ids, filtering the flattened catalog by a category's id gives exactly that category's images, in catalog order. |
| CatalogStore.FilterAbsent | script.js:161 | Filtering by an id no category has gives the empty list. |
| Cyclic.NextIndex | script.js:323-326 | The next index stays in range. |
| Cyclic.PrevIndex | script.js:329-332 | The previous index stays in range. |
| Cyclic.StepsAreInverse | script.js:323-332 | A step forward then back, or back then forward, returns to the same index. |
| Cyclic.StepsWrap | script.js:323-332 | The last index steps forward to 0, and 0 steps back to the last. |
| Cyclic.AdvanceIsModular | script.js:323-326 | `k` steps forward from `i` land on `(i + k) % n`. |
| Cyclic.AdvanceFullCircle | script.js:323-326 | `n` steps forward around `n` images come back to the start. |
| Viewer.OpenCategory | script.js:159-181 | Opening a category shows the gallery and filters to exactly that category's images. Nothing else in the view changes: not the lightbox, the index, the catalog, the cards or the image list. It pushes `#category/<id>` only when asked to write the URL. |
| Viewer.ShowCategoryView | script.js:184-193 | Showing the cards hides the gallery and changes nothing else in the view. It pushes the home address only when asked. |
| Viewer.UpdateLightboxImage | script.js:248-267 | The view is unchanged. The current route becomes the shown image. A replace overwrites only the current entry with the image hash. Otherwise the image hash is pushed. Nothing is written when the flag is off. |
| Viewer.OpenLightbox | script.js:224-230 | The lightbox opens on the given index, and the route names that image. History is written only when asked. |
| Viewer.CloseLightbox | script.js:233-245 | Closing clears only the lightbox flag. It pushes the shown image's category hash when the index is valid, and otherwise writes nothing. |
| Viewer.CloseLightboxQuietly | script.js:445-448 | The quiet close clears the lightbox flag and leaves history untouched. |
| Viewer.NextImage | script.js:323-326 | Next moves the index one step round the filtered list. It overwrites only the current history entry, with the new image's hash. |
| Viewer.PrevImage | script.js:329-332 | Prev moves the index one step back round the filtered list. It overwrites only the current history entry, with the new image's hash. |
| Viewer.NextTimesMoves | script.js:323-326 | `k` presses of next move the index `k` places round the list. They never change the history length or cursor. |
| Viewer.NextCycle | script.js:323-326 | Pressing next once per filtered image returns to the same view. |
| Viewer.PrevUndoesNext | script.js:323-332 | Prev after next, and next after prev, restore the view. |
| Viewer.HandleRoute | script.js:393-442 | Route handling writes no history, keeps the state well formed, and leaves the loaded catalog, the drawn cards and the flattened image list alone. A malformed escape changes nothing. Home closes the lightbox and shows the cards. An unknown category changes nothing; a known one shows exactly its images with the lightbox closed. An unknown image changes nothing. |
| Viewer.DeepLinkOpensImage | script.js:419-438 | From the cards, an image link opens the image's category and shows that image in the lightbox. |
| Viewer.ImageOutsideShownGalleryIsIgnored | script.js:426-438 | While a gallery is showing, an image link that is not in it changes nothing, even if the image exists elsewhere. |
| Viewer.ImageLinkOpensFirstMatch | script.js:76-80 | While a gallery is showing, an image link to a photo it holds opens the lightbox on the first photo of the selection with that category and name. Nothing else in the view changes. This still holds when two photos share the pair. |
| Viewer.CategoryLinkRestoresView | script.js:406-416 | Re-handling the hash that opening a category wrote reproduces the same view. |
| Viewer.ImageLinkRestoresView | script.js:419-438 | Re-handling the hash that opening an image wrote reproduces the same view. |
| Viewer.DrawnCards | script.js:138-155 | The drawn cards are a prefix of the sorted catalog, each with a preview image. Drawing stops at the first category without images. All cards are drawn exactly when every category has an image. |
| Viewer.Loading | script.js:88-104 | Before the route is handled, the state is well formed with the lightbox closed. It holds the flattened catalog, everything selected, and exactly the cards `renderCategoryCards` draws before the first category without images (`DrawnCards` of the sorted cards). All cards are drawn exactly when every category has an image. |
| Viewer.Init | script.js:83-112 | Start-up has no error exactly when every category has an image and the hash parses. A card without images is reported as a drawing failure exactly when one exists. On either failure the page keeps the partial state of `Loading`; otherwise it is `Loading` with the route handled. |
| Input.SwipeAction | script.js:377-388 | A swipe of at most 50 pixels either way does nothing. More than 50 to the left is next, and more than 50 to the right is prev. |
| Input.HandleSwipe | script.js:377-388 | The swipe handler does nothing, calls next, or calls prev, according to `SwipeAction`. |
| Input.HandleKey | script.js:348-363 | Keys do nothing unless the lightbox is open. Escape is `CloseLightbox`, the right arrow is `NextImage`, the left arrow is `PrevImage`, and any other key does nothing. |
| Input.Step | script.js:335-391 | Every event keeps the state well formed. An event that reaches no listener changes nothing: a card click needs the category view shown, and a gallery-item click needs the gallery shown. Back and forward write no entry. Next, prev, swipes and non-Escape keys keep the history length and cursor. |
| Input.Click | script.js:335-345 | A click that reaches its listener keeps the state well formed. The next and previous buttons keep the history length and cursor. |
| Input.PageClick | script.js:153-221 | Each click keeps the state well formed. A category card shows the gallery with exactly that category's images, and pushes a hash that routes back to the category. The back button hides the gallery and pushes the home address. A gallery item opens the lightbox on that position, and pushes a hash that routes to that image. |
| Input.LightboxClick | script.js:335-345 | Carousel items, close, next and prev keep the state well formed. Close shuts the lightbox and the others keep it open. Next and prev keep the history length and cursor. |
| Input.BrowsingHistoryWritesNothing | script.js:391-442 | Any run of back and forward presses leaves the history entries untouched. |
| Input.LightboxBrowsingAddsNoEntry | script.js:335-388 | Any run of next, prev, swipe and arrow-key events keeps the history length and cursor. |
| CardOrder.IndexIn | script.js:123-124 | `indexOf` returns the first position of the id in the curated list, or -1 exactly when it is absent. |
| CardOrder.CompareCards | script.js:122-136 | A lower curated rank sorts first. Two curated cards of the same rank tie. Two uncurated cards compare by the collation order of their display names. |
| CardOrder.CardLeIsLexicographic | script.js:122-136 | The comparator orders first by curated rank (unlisted categories last) and then by display name. |
| CardOrder.CardLePreorder | script.js:122-136 | For any collation order, the card comparator is a total preorder. |
| CardOrder.SortedCards | script.js:122-136 | The cards are a permutation of the catalog, sorted by the comparator. |
| CardOrder.CardsOrder | script.js:122-136 | In the drawn order, a card's curated rank is never above a later card's. Unlisted categories come after all curated ones, and among themselves follow their display names. |
| Ordering.Sort | generate-catalog.js:86 | Sorting gives a permutation of the input that is non-decreasing in the order. |
| Ordering.CodePointIsTotalOrder | generate-catalog.py:81 | Python's code-point order on strings is a total order. |
| Ordering.SortDistinct | generate-catalog.js:90 | Sorting keeps distinct keys distinct. |
| CatalogWalk.FileFiltersAgree | generate-catalog.py:21-22 | On names without a newline, whatever the JavaScript filter accepts the Python one accepts too. On names also free of `İ` and `ı`, they accept the same files. |
| CatalogWalk.FileFiltersDifferOnDottedI | generate-catalog.py:21 | A `.gif` name spelled with `İ` or `ı` is collected by the Python port and not by the JavaScript one. |
| CatalogWalk.SkipFolderByPosition | generate-catalog.js:16-18 | A folder is pruned exactly when its lower-cased name starts with `scan` or holds `renamed` or `test` at some position. |
| CatalogWalk.JsIsImageByLastDot | generate-catalog.js:22 | The JavaScript filter accepts a name exactly when the text after its last dot, lower-cased, is one of the four extensions. |
| CatalogWalk.PyIsImageByLastDot | generate-catalog.py:21 | On a name without a newline, the Python filter accepts exactly when the text after the last dot, case-folded, is one of the four extensions. |
| CatalogWalk.FileFiltersDifferOnTrailingNewline | generate-catalog.py:21 | An image name followed by a newline is collected by the Python port and not by the JavaScript one. |
| CatalogWalk.FileFiltersDifferOnEmbeddedNewline | generate-catalog.js:22 | A name with a newline inside it, ending in an image name, is collected by the JavaScript port and not by the Python one. |
| CatalogWalk.JsImageAfterAnything | generate-catalog.js:22 | The JavaScript filter reads only the end of the name: whatever precedes an accepted name, the result is still accepted. |
| CatalogWalk.NoLineMatchAcrossNewline | generate-catalog.py:21 | A name holding a newline anywhere does not match `.*\.(ext)` from its start. |
| CatalogWalk.CollectJs | generate-catalog.js:8-28 | A file is collected exactly when no folder on its path is pruned and its name ends in an image extension, in any case. |
| CatalogWalk.CollectPy | generate-catalog.py:10-24 | A file is collected exactly when no folder on its path is pruned and its name matches the Python regular expression. |
| CatalogWalk.CategoryOf | generate-catalog.py:34-40 | A path without '/' is filed under `Miscellaneous`. Otherwise the category is '/'-free and the path starts with it followed by '/'. |
| CatalogWalk.CategoryOfPath | generate-catalog.py:34-40 | A file in the root is filed under `Miscellaneous`; any other file is filed under its top folder. |
| CatalogWalk.CategoryNeverSkipped | generate-catalog.py:14-18 | A collected file's category is never a pruned folder name. |
| CatalogWalk.JsCategory | generate-catalog.js:38-48 | As written, every JavaScript category is `phalakimages`. |
| CatalogWalk.JsCategoryIsWrong | generate-catalog.js:38-48 | As written, a file inside any top folder other than `phalakimages` gets a category different from its folder. |
| CatalogWalk.PyCategory | generate-catalog.py:32-40 | For paths that do not repeat the root prefix, the Python category is the top folder, or `Miscellaneous`. |
| CatalogWalk.LastDot | generate-catalog.py:46 | Returns the position of the last dot, or -1 exactly when there is none. |
| CatalogWalk.JsStem | generate-catalog.js:56 | Node's stem is a prefix of the name. When it is shorter, it is non-empty and the rest starts at the last dot. It is the whole name only when there is no dot after the first character, or the name is `..`. |
| CatalogWalk.PyStem | generate-catalog.py:46 | Python's stem is a prefix of the name. When it is shorter, it is not all dots and the rest starts at the last dot. It is the whole name only when there is no dot, or only dots come before the last one. |
| CatalogWalk.StemStripsExtension | generate-catalog.js:56 | In both ports, `name` is the file name without its extension when the name does not start with a dot. |
| CatalogWalk.StemsDifferOnLeadingDots | generate-catalog.py:46 | On `..jpg`, Node gives `.` and Python keeps `..jpg`. |
| CatalogWalk.JsPathField | generate-catalog.js:55 | The JavaScript `path` is the path below the root, prefixed with `phalakimages/`. |
| CatalogWalk.PyPathField | generate-catalog.py:49 | The Python `path` drops the leading `./` and nothing else. |
| CatalogWalk.FilenameField | generate-catalog.py:45 | `filename` is the basename of the walked path, in both ports. |
| CatalogWalk.JsImage | generate-catalog.js:54-58 | The JavaScript record's `filename` is the basename and its `name` is Node's stem of it. Its `path` is the path under `phalakimages/` when the path holds no `./`. |
| CatalogWalk.PyImage | generate-catalog.py:45-52 | The Python record's `filename` is the basename and its `name` is Python's stem of it. Its `path` is the path under `phalakimages/` when the path holds no `./`. |
| CatalogWalk.PathsDifferOnDottedFolders | generate-catalog.py:49 | For a file below two folders whose names end in a dot, JavaScript removes only the first `./` from `path` and Python removes both. |
| CatalogWalk.ImageRecordFields | generate-catalog.js:54-58 | For an ordinary file, both ports record the path under `phalakimages/`, the stem as `name` and the basename as `filename`. |
| CatalogWalk.PagePathMatchesHash | generate-catalog.js:106 | The unencoded share path spells the in-page image hash exactly when neither the category nor the name has a character the encoder escapes. |
| CatalogWalk.PageUrl | generate-catalog.js:106 | The share address starts with the base address and '/'. The rest spells the in-page image hash exactly when neither the category nor the name has a character the encoder escapes. |
| CatalogBuild.DisplayNameJs | generate-catalog.js:85 | A known key gets its friendly name and any other key is its own name. The `|| key` fallback never fires on a known key, because no friendly name is empty. |
| CatalogBuild.DisplayNamePy | generate-catalog.py:80 | The Python name equals the JavaScript one for every key. Only the empty key gets an empty name. |
| CatalogBuild.PrunedNamesUnused | generate-catalog.js:73-76 | The friendly names of `Scan`, `Scan 26-03-2014`, `vyakti-renamed` and `vyaktitest` can never be used, because those folders are pruned. |
| CatalogBuild.ImagesOf | generate-catalog.js:50-59 | The images filed under a key are exactly the collected entries with that key. |
| CatalogBuild.FindGroup | generate-catalog.js:50 | Finds the bucket with the key, or -1 exactly when there is none. |
| CatalogBuild.AddEntry | generate-catalog.js:50-58 | Filing an entry keeps every key in place and leaves the other categories' buckets alone. An existing bucket gets the image appended. A new category gets a bucket of its own at the end. |
| CatalogBuild.GroupByCategory | generate-catalog.py:42-52 | Grouping yields one bucket per category met, with no key twice. Each bucket holds exactly that category's images in walk order and is never empty. |
| CatalogBuild.AddToExistingFaithful | generate-catalog.js:50-59 | Adding a file to an existing bucket keeps the buckets faithful to the walk. |
| CatalogBuild.AddNewFaithful | generate-catalog.js:50-52 | Opening a bucket for a new category keeps the buckets faithful to the walk. |
| CatalogBuild.Visible | generate-catalog.js:82 | The visible buckets are exactly those not keyed `Miscellaneous`. |
| CatalogBuild.ToCategory | generate-catalog.js:83-87 | A record keeps its key and display name. Its images are a permutation of the bucket's, sorted by name. |
| CatalogBuild.Build | generate-catalog.py:73-85 | The output has distinct ids, is sorted by display name, and never contains `Miscellaneous`. There is one record per other bucket, each built by `ToCategory` from the bucket with its key. |
| Generator.CatalogContents | generate-catalog.js:50-90 | A generated catalog has a record for a key exactly when the key is not `Miscellaneous` and some file is filed under it. Each record holds exactly that key's images, sorted by name, under its friendly name. Records are sorted by display name with distinct ids. |
| Generator.EntryListed | generate-catalog.py:75-82 | Every collected file outside `Miscellaneous` is listed in its category's record. |
| Generator.CatalogHasNoEmptyCategory | generate-catalog.py:42-52 | No generated record is empty. |
| Generator.GeneratedCatalogLoads | script.js:83-112 | With a generated catalog, every card is drawn. The route is handled without an error exactly when the opening hash parses. |
| Generator.JsEntriesAllUnderRoot | generate-catalog.js:36-48 | As written, every JavaScript entry is filed under `phalakimages`. |
| Generator.JsCatalog | generate-catalog.js:81-90 | As written, `generate-catalog.js` emits one record, `phalakimages`, holding every collected image, or none when nothing is collected. |
| Generator.FixedJsCatalog | generate-catalog.js:36-90 | With the root stripped as intended, the records have distinct ids, each is non-empty under its friendly name, and there is one for exactly the top folders of collected files other than `Miscellaneous`. |
| Generator.PyCatalog | generate-catalog.py:32-85 | The Python records have distinct ids, each is non-empty under its friendly name, and there is one for exactly the categories of collected files other than `Miscellaneous`. |
| Generator.FixedJsFilesByFolder | generate-catalog.js:38-48 | With the root stripped as intended, a file in a top folder is listed in that folder's record. |
| Text.Split | script.js:57 | Splitting gives at least one piece, no piece holds the separator, and there is one piece exactly when the text has no separator. |
| Text.SplitJoin | generate-catalog.js:39 | Joining the pieces with the separator gives the text back. |
| Text.ReplaceFirst | generate-catalog.js:38 | JavaScript's `replace` leaves a text without the pattern as it is, and replaces a leading occurrence. |
| Text.ReplaceFirstAt | generate-catalog.js:55 | JavaScript's `replace` keeps the text before the first occurrence and after it, and puts the replacement in its place. |
| Text.ReplaceAll | generate-catalog.py:34 | Python's `replace` leaves a text without the pattern as it is. A text starting with the pattern starts with the replacement. |
| Text.ReplaceAllAt | generate-catalog.py:49 | Python's `replace` keeps the text before the first occurrence, puts the replacement in its place, and goes on replacing in the rest. |

## Left out

- DOM work is not modelled: markup, `innerHTML`, `classList`, scrolling and the carousel markup. The two view flags and the index stand in for it.
- `fetch`, JSON parsing and the console are not modelled. `Init` takes the parsed catalog.
- The initial visibility of the gallery comes from `index.html`, which is not part of this model, so `Init` takes it as a parameter.
- The filesystem walk is not modelled: `readdirSync`, `statSync`, `os.walk` and their visiting order. The walk is an input list of relative paths.
- Symbolic links and the JavaScript recursion into them are not modelled.
- File writing, the HTML templates, the `sessionStorage` redirect and the path-based router of the generated pages are not modelled. Only the `pageUrl` shape is kept.
- Uri.Encode: only ASCII characters are escaped. Other characters are kept verbatim, where `encodeURIComponent` writes their UTF-8 bytes.
- Uri.Decode: decoding accepts only escapes below `%80`. Anything else counts as malformed.
- Text.Lower folds only ASCII letters; `toLowerCase` and `str.lower` fold all of Unicode. No other character lower-cases to a letter of `scan`, `renamed` or `test`, so the folder filter is exact.
- Ordering.Sort: stability is not proved. Both language sorts are stable, and so is the insertion sort modelled here.
- CatalogWalk.PyIsImage: `re.IGNORECASE` is modelled as ASCII lower-casing plus the fold of `İ` and `ı` to `i`. No other character folds to a letter of the four extensions, so the filter is exact for this pattern.
- BrowserHistory.Back: on the first entry a real browser leaves the page and fires no `popstate`. The model keeps the history, and `Input.Step` then handles the current route again.
- Input.Reachable: the lightbox overlay is assumed to cover the cards and the gallery, so their clicks reach no listener while it is open. `Viewer.Wf` relies on this. Cards take clicks only while the gallery is hidden, and gallery items only while it is shown. The page's markup is not part of this model, so two things are not modelled. First, the model lets the back-to-categories button take clicks whenever the lightbox is closed. Second, it does not model a gallery that the markup shows at load before `renderGallery` has drawn any item.
- Input.SwipeAction: touch coordinates are integers. `screenX` can be fractional.
- CatalogBuild.GroupByCategory: groups follow first-seen order, as Python dicts do. JavaScript `Object.keys` lists integer-like keys such as `1` first. The final sort by display name hides this except among equal display names.
- CatalogBuild.DisplayNameJs: JavaScript property lookup also finds inherited names such as `constructor`. That lookup is not modelled.

## Findings

| source | as written | input that shows it | evidently intended | confidence | as-written member | corrected member |
|---|---|---|---|---|---|---|
| generate-catalog.js:12,38 | `path.join('./phalakimages', f)` normalises the path to `phalakimages/f`, so `replace('./phalakimages/', '')` never matches. The first segment is then always `phalakimages`. | the file `vyakti/a.jpg`, which is filed under `phalakimages` rather than `vyakti` | Strip the root as the Python port does, so that the top folder below the root is the category. | not executed | CatalogWalk.JsCategoryIsWrong | Generator.FixedJsFilesByFolder |

Five further divergences between the ports are modelled on both sides rather than reported as
errors:

- Node's `extname` and Python's `splitext` disagree on names made of dots before the extension
  (`CatalogWalk.StemsDifferOnLeadingDots`).
- Python's `$` accepts a trailing newline, which the JavaScript filter does not
  (`CatalogWalk.FileFiltersDifferOnTrailingNewline`).
- JavaScript's `$` looks only at the end of the name, while Python's `.*` does not cross a
  newline, so a name with a newline inside it is collected by the JavaScript port only
  (`CatalogWalk.FileFiltersDifferOnEmbeddedNewline`).
- Python's case folding takes `İ` and `ı` for the `i` of `gif`, JavaScript's does not
  (`CatalogWalk.FileFiltersDifferOnDottedI`).
- JavaScript's `replace('./', '')` removes only the first `./` from `path`, Python's removes
  every one, which shows below folders whose names end in a dot
  (`CatalogWalk.PathsDifferOnDottedFolders`).

=== FILE: browser_history.dfy ===
/**
 * The browser's session history as the page sees it: a list of hashes and the position of
 * the entry being shown. `history.pushState` drops the entries ahead of the cursor and
 * appends; `history.replaceState` overwrites the current entry; back and forward only move
 * the cursor.
 */
module BrowserHistory {

  datatype History = History(entries: seq<string>, cursor: nat)

  predicate Valid(h: History) {
    h.cursor < |h.entries|
  }

  /** A history holding one entry: the page as first loaded. */
  function Start(hash: string): (h: History)
    ensures Valid(h)
  {
    History([hash], 0)
  }

  /** `window.location.hash` of the entry being shown. */
  function Current(h: History): string
    requires Valid(h)
  {
    h.entries[h.cursor]
  }

  /** `history.pushState(null, null, hash)`. */
  function Push(h: History, hash: string): (r: History)
    requires Valid(h)
    ensures Valid(r) && Current(r) == hash
    ensures r.cursor == h.cursor + 1 && |r.entries| == r.cursor + 1
    ensures r.entries[..r.cursor] == h.entries[..r.cursor]
  {
    History(h.entries[..h.cursor + 1] + [hash], h.cursor + 1)
  }

  /** `history.replaceState(null, null, hash)`. */
  function Replace(h: History, hash: string): (r: History)
    requires Valid(h)
    ensures Valid(r) && Current(r) == hash
    ensures r.cursor == h.cursor && |r.entries| == |h.entries|
    ensures forall k :: 0 <= k < |h.entries| && k != h.cursor ==> r.entries[k] == h.entries[k]
  {
    History(h.entries[h.cursor := hash], h.cursor)
  }

  /**
   * The back button: the cursor moves one entry back. On the first entry the browser would
   * leave the page, which is not modelled: the history stays as it is.
   */
  function Back(h: History): (r: History)
    requires Valid(h)
    ensures Valid(r) && r.entries == h.entries
    ensures r.cursor == if h.cursor > 0 then h.cursor - 1 else h.cursor
  {
    if h.cursor > 0 then History(h.entries, h.cursor - 1) else h
  }

  /** The forward button: the cursor moves one entry on, unless it is on the last entry. */
  function Forward(h: History): (r: History)
    requires Valid(h)
    ensures Valid(r) && r.entries == h.entries
    ensures r.cursor == if h.cursor + 1 < |h.entries| then h.cursor + 1 else h.cursor
  {
    if h.cursor + 1 < |h.entries| then History(h.entries, h.cursor + 1) else h
  }

  /**
   * Back and forward undo each other, and back after a push returns to the entry that was
   * current before it.
   */
  lemma BackForwardUndo(h: History, hash: string)
    requires Valid(h)
    ensures h.cursor > 0 ==> Forward(Back(h)) == h
    ensures h.cursor + 1 < |h.entries| ==> Back(Forward(h)) == h
    ensures Current(Back(Push(h, hash))) == Current(h)
  {
  }
}

=== FILE: card_order.dfy ===
/**
 * The order in which `renderCategoryCards` draws the category cards: the five curated
 * categories first, in their curated order, then every other category by display name under
 * `localeCompare`, modelled here by an abstract collation order.
 */
module CardOrder {
  import opened CatalogStore
  import opened Ordering

  /** `categoryOrder`. */
  const CuratedOrder: seq<string> := ["vyakti", "dinvishesh", "lalit", "vaishishtya", "kodi"]

  /** `order.indexOf(id)`: the first position of `id`, or -1. */
  function IndexIn(order: seq<string>, id: string): (r: int)
    ensures -1 <= r < |order|
    ensures r >= 0 ==> order[r] == id && forall k :: 0 <= k < r ==> order[k] != id
    ensures r == -1 <==> id !in order
    decreases |order|
  {
    if |order| == 0 then -1
    else if order[0] == id then 0
    else
      var k := IndexIn(order[1..], id);
      if k == -1 then -1 else k + 1
  }

  /**
   * The sort comparator of `renderCategoryCards`: a lower curated rank sorts first; two
   * curated cards of one rank tie; two uncurated cards compare by display name.
   */
  function CompareCards(le: (string, string) -> bool, a: Category, b: Category): (r: int)
    ensures Rank(a) < Rank(b) ==> r < 0
    ensures Rank(b) < Rank(a) ==> r > 0
    ensures Rank(a) == Rank(b) < |CuratedOrder| ==> r == 0
    ensures Rank(a) == Rank(b) == |CuratedOrder| ==>
      (r < 0 <==> le(a.displayName, b.displayName) && !le(b.displayName, a.displayName))
      && (r > 0 <==> !le(a.displayName, b.displayName))
  {
    var ia := IndexIn(CuratedOrder, a.category);
    var ib := IndexIn(CuratedOrder, b.category);
    if ia != -1 && ib != -1 then ia - ib
    else if ia != -1 then -1
    else if ib != -1 then 1
    else Compare3(le, a.displayName, b.displayName)
  }

  /** "`a` may be drawn before `b`": the comparator does not put `b` first. */
  function CardLe(le: (string, string) -> bool): (Category, Category) -> bool {
    (a: Category, b: Category) => CompareCards(le, a, b) <= 0
  }

  /** Position in the curated list, with every other category sharing the last rank. */
  function Rank(c: Category): int {
    var i := IndexIn(CuratedOrder, c.category);
    if i == -1 then |CuratedOrder| else i
  }

  /**
   * The comparator is lexicographic: curated rank first, then, among the uncurated
   * categories only, the collation order of display names.
   */
  lemma CardLeIsLexicographic(le: (string, string) -> bool, a: Category, b: Category)
    ensures CardLe(le)(a, b) <==>
      Rank(a) < Rank(b) || (Rank(a) == Rank(b) && (Rank(a) < |CuratedOrder| || le(a.displayName, b.displayName)))
  {
  }

  /** A collation order that is a total preorder makes the card comparator one too. */
  lemma CardLePreorder(le: (string, string) -> bool)
    requires TotalPreorder(le)
    ensures TotalPreorder(CardLe(le))
  {
    var r := CardLe(le);
    forall a, b ensures r(a, b) || r(b, a) {
      CardLeIsLexicographic(le, a, b);
      CardLeIsLexicographic(le, b, a);
    }
    forall a, b, c | r(a, b) && r(b, c) ensures r(a, c) {
      CardLeIsLexicographic(le, a, b);
      CardLeIsLexicographic(le, b, c);
      CardLeIsLexicographic(le, a, c);
    }
  }

  /** `[...catalog].sort(comparator)`: the cards in drawing order. */
  function SortedCards(catalog: seq<Category>, le: (string, string) -> bool): (r: seq<Category>)
    requires TotalPreorder(le)
    ensures multiset(r) == multiset(catalog)
    ensures SortedBy(r, CardLe(le))
  {
    CardLePreorder(le);
    Sort(catalog, CardLe(le))
  }

  /**
   * The drawing order: curated categories come before all others and follow the curated
   * list; the others follow their display names.
   */
  lemma CardsOrder(catalog: seq<Category>, le: (string, string) -> bool, i: int, j: int)
    requires TotalPreorder(le)
    requires 0 <= i < j < |catalog|
    ensures var r := SortedCards(catalog, le);
      && Rank(r[i]) <= Rank(r[j])
      && (Rank(r[i]) == Rank(r[j]) == |CuratedOrder| ==> le(r[i].displayName, r[j].displayName))
  {
    var r := SortedCards(catalog, le);
    assert |r| == |catalog| by {
      assert |multiset(r)| == |multiset(catalog)|;
    }
    assert CardLe(le)(r[i], r[j]);
    CardLeIsLexicographic(le, r[i], r[j]);
  }
}

=== FILE: catalog_build.dfy ===
/**
 * The grouping and ordering half of the catalog generator: collected files are grouped by
 * category in first-seen order, the root-level group is dropped, each category is given its
 * display name, and images and categories are sorted. The JavaScript port sorts with
 * `localeCompare`, a collation order taken here as any total preorder `le`; the Python port
 * sorts by code point.
 */
module CatalogBuild {
  import opened Ordering
  import opened CatalogStore
  import opened Text
  import opened CatalogWalk

  /** A collected file: the category it was filed under and its image record. */
  datatype Entry = Entry(category: string, image: Image)

  /** One bucket of the intermediate `catalog` object: a key and its images in walk order. */
  datatype Group = Group(key: string, images: seq<Image>)

  /** The friendly names both ports know. */
  const CategoryNames: map<string, string> := map[
    "1" := "Collection 1",
    "2" := "Collection 2",
    "3" := "Collection 3",
    "dinvishesh" := "दिनविशेष (Special Days)",
    "vyakti" := "व्यक्ती (Personalities)",
    "vaishishtya" := "वैशिष्ट्य (Distinguished)",
    "kodi" := "कोडी (Riddles)",
    "lalit" := "ललित (Creative)",
    "additional-dina" := "Additional - Special Days",
    "additional-vaishis" := "Additional - Distinguished",
    "Scan" := "Scanned Collection",
    "Scan 26-03-2014" := "Scanned Collection (March 2014)",
    "vyakti-renamed" := "Personalities (Renamed)",
    "vyaktitest" := "Personalities (Test)",
    "Miscellaneous" := "Miscellaneous"
  ]

  /**
   * `categoryNames[key] || key`: an empty friendly name would fall back to the key, but no
   * friendly name is empty, so a known key always gets its friendly name.
   */
  function DisplayNameJs(key: string): (r: string)
    ensures key in CategoryNames ==> r == CategoryNames[key]
    ensures key !in CategoryNames ==> r == key
  {
    if key in CategoryNames && CategoryNames[key] != "" then CategoryNames[key] else key
  }

  /** `category_names.get(key, key)`: the two ports name every category alike, and only the empty key gets an empty name. */
  function DisplayNamePy(key: string): (r: string)
    ensures r == DisplayNameJs(key)
    ensures r == "" <==> key == ""
  {
    if key in CategoryNames then CategoryNames[key] else key
  }

  /** A folder named `name` is pruned because its lower-cased name holds `word` at `k`. */
  lemma SkippedBy(name: string, word: string, k: nat)
    requires word == "renamed" || word == "test"
    requires k + |word| <= |name| && Lower(name)[k..k + |word|] == word
    ensures SkipFolder(name)
  {
    assert Lower(name)[k..][..|word|] == word;
    ContainsAt(Lower(name), word, k);
  }

  /** A folder whose name starts with `Scan` is pruned. */
  lemma ScanSkipped(name: string)
    requires |name| >= 4 && name[..4] == "Scan"
    ensures SkipFolder(name)
  {
    var low := Lower(name);
    assert low[0] == 's' && low[1] == 'c' && low[2] == 'a' && low[3] == 'n';
    assert low[..4] == "scan";
  }

  /** The four folders whose friendly names are listed but pruned by the walk. */
  lemma PrunedNamesSkipped()
    ensures SkipFolder("Scan") && SkipFolder("Scan 26-03-2014")
    ensures SkipFolder("vyakti-renamed") && SkipFolder("vyaktitest")
  {
    ScanSkipped("Scan");
    ScanSkipped("Scan 26-03-2014");
    SkippedBy("vyakti-renamed", "renamed", 7);
    SkippedBy("vyaktitest", "test", 6);
  }

  /**
   * Four friendly names belong to folders the walk prunes, so no collected file is ever filed
   * under them and they are never shown.
   */
  lemma PrunedNamesUnused(rel: string)
    requires KeptByWalk(rel)
    ensures CategoryOf(rel) !in {"Scan", "Scan 26-03-2014", "vyakti-renamed", "vyaktitest"}
  {
    CategoryNeverSkipped(rel);
    PrunedNamesSkipped();
  }

  function NameOf(img: Image): string {
    img.name
  }

  function DisplayNameOf(c: Category): string {
    c.displayName
  }

  function CategoryIdOf(c: Category): string {
    c.category
  }

  function KeyOf(g: Group): string {
    g.key
  }

  /** The images filed under `key`, in walk order. */
  function ImagesOf(entries: seq<Entry>, key: string): (r: seq<Image>)
    ensures forall img :: img in r <==> Entry(key, img) in entries
    decreases |entries|
  {
    if |entries| == 0 then []
    else
      var n := |entries| - 1;
      assert entries == entries[..n] + [entries[n]];
      ImagesOf(entries[..n], key) + (if entries[n].category == key then [entries[n].image] else [])
  }

  /** Some collected file is filed under `key`. */
  predicate Filed(entries: seq<Entry>, key: string) {
    exists j :: 0 <= j < |entries| && entries[j].category == key
  }

  /** Some group has key `key`. */
  predicate HasGroup(groups: seq<Group>, key: string) {
    exists i :: 0 <= i < |groups| && groups[i].key == key
  }

  /** The groups are exactly the categories of `entries`, once each, with all their images in walk order. */
  ghost predicate Faithful(groups: seq<Group>, entries: seq<Entry>) {
    && DistinctBy(groups, KeyOf)
    && (forall i :: 0 <= i < |groups| ==> groups[i].images == ImagesOf(entries, groups[i].key))
    && (forall i :: 0 <= i < |groups| ==> |groups[i].images| > 0)
    && (forall key :: HasGroup(groups, key) <==> Filed(entries, key))
  }

  /** Index of the group with key `key`, or -1. */
  function FindGroup(groups: seq<Group>, key: string): (i: int)
    ensures -1 <= i < |groups|
    ensures i >= 0 ==> groups[i].key == key
    ensures i == -1 <==> !HasGroup(groups, key)
  {
    if |groups| == 0 then -1
    else if groups[|groups| - 1].key == key then |groups| - 1
    else
      var i := FindGroup(groups[..|groups| - 1], key);
      assert HasGroup(groups, key) ==> HasGroup(groups[..|groups| - 1], key) by {
        if HasGroup(groups, key) {
          var j :| 0 <= j < |groups| && groups[j].key == key;
          assert groups[..|groups| - 1][j].key == key;
        }
      }
      i
  }

  /** `catalog[category].push(image)`, creating the bucket when the category is new. */
  function AddEntry(groups: seq<Group>, e: Entry): (r: seq<Group>)
    ensures |r| == if HasGroup(groups, e.category) then |groups| else |groups| + 1
    ensures forall j :: 0 <= j < |groups| ==> r[j].key == groups[j].key
    ensures forall j :: 0 <= j < |groups| && groups[j].key != e.category ==> r[j] == groups[j]
    ensures HasGroup(groups, e.category) ==>
      r[FindGroup(groups, e.category)].images == groups[FindGroup(groups, e.category)].images + [e.image]
    ensures !HasGroup(groups, e.category) ==> r[|groups|] == Group(e.category, [e.image])
  {
    var i := FindGroup(groups, e.category);
    if i >= 0 then groups[i := Group(e.category, groups[i].images + [e.image])]
    else groups + [Group(e.category, [e.image])]
  }

  lemma ImagesOfSnoc(entries: seq<Entry>, e: Entry, key: string)
    ensures ImagesOf(entries + [e], key)
         == ImagesOf(entries, key) + (if e.category == key then [e.image] else [])
  {
    assert (entries + [e])[..|entries|] == entries;
  }

  lemma FiledSnoc(entries: seq<Entry>, e: Entry, key: string)
    ensures Filed(entries + [e], key) <==> Filed(entries, key) || key == e.category
  {
    var all := entries + [e];
    if Filed(entries, key) {
      var j :| 0 <= j < |entries| && entries[j].category == key;
      assert all[j].category == key;
    }
    if Filed(all, key) && key != e.category {
      var j :| 0 <= j < |all| && all[j].category == key;
      assert entries[j].category == key;
    }
    assert all[|entries|] == e;
  }

  lemma NotFiledNoImages(entries: seq<Entry>, key: string)
    requires !Filed(entries, key)
    ensures ImagesOf(entries, key) == []
  {
  }

  /** Filing an entry under a category that already has a bucket. */
  lemma AddToExistingFaithful(groups: seq<Group>, entries: seq<Entry>, e: Entry)
    requires Faithful(groups, entries) && FindGroup(groups, e.category) >= 0
    ensures Faithful(AddEntry(groups, e), entries + [e])
  {
    var r := AddEntry(groups, e);
    var all := entries + [e];
    assert forall j :: 0 <= j < |r| ==> r[j].key == groups[j].key;
    forall j | 0 <= j < |r| ensures r[j].images == ImagesOf(all, r[j].key) {
      ImagesOfSnoc(entries, e, r[j].key);
    }
    forall key ensures HasGroup(r, key) <==> Filed(all, key) {
      FiledSnoc(entries, e, key);
      if HasGroup(groups, key) {
        var j :| 0 <= j < |groups| && groups[j].key == key;
        assert r[j].key == key;
      }
    }
  }

  /** Filing an entry under a category met for the first time. */
  lemma AddNewFaithful(groups: seq<Group>, entries: seq<Entry>, e: Entry)
    requires Faithful(groups, entries) && FindGroup(groups, e.category) == -1
    ensures Faithful(AddEntry(groups, e), entries + [e])
  {
    var r := AddEntry(groups, e);
    var all := entries + [e];
    assert r == groups + [Group(e.category, [e.image])];
    NotFiledNoImages(entries, e.category);
    forall j | 0 <= j < |r| ensures r[j].images == ImagesOf(all, r[j].key) {
      ImagesOfSnoc(entries, e, r[j].key);
    }
    assert DistinctBy(r, KeyOf) by {
      forall a, b | 0 <= a < b < |r| ensures KeyOf(r[a]) != KeyOf(r[b]) {
        if b == |groups| {
          assert r[a] == groups[a];
        }
      }
    }
    forall key ensures HasGroup(r, key) <==> Filed(all, key) {
      FiledSnoc(entries, e, key);
      assert r[|groups|].key == e.category;
      if HasGroup(groups, key) {
        var j :| 0 <= j < |groups| && groups[j].key == key;
        assert r[j].key == key;
      }
    }
  }

  /**
   * The `catalog` object the generators fill: one group per category, in the order the
   * categories are first met, each holding that category's images in walk order.
   */
  function GroupByCategory(entries: seq<Entry>): (groups: seq<Group>)
    ensures Faithful(groups, entries)
    decreases |entries|
  {
    if |entries| == 0 then []
    else
      var n := |entries| - 1;
      var g := GroupByCategory(entries[..n]);
      assert entries == entries[..n] + [entries[n]];
      if FindGroup(g, entries[n].category) >= 0 then
        AddToExistingFaithful(g, entries[..n], entries[n]);
        AddEntry(g, entries[n])
      else
        AddNewFaithful(g, entries[..n], entries[n]);
        AddEntry(g, entries[n])
  }

  /** The groups that become categories: everything but `Miscellaneous`. */
  function Visible(groups: seq<Group>): (r: seq<Group>)
    ensures forall g :: g in r <==> g in groups && g.key != Miscellaneous
    ensures DistinctBy(groups, KeyOf) ==> DistinctBy(r, KeyOf)
    decreases |groups|
  {
    if |groups| == 0 then []
    else
      var n := |groups| - 1;
      var rest := Visible(groups[..n]);
      assert groups == groups[..n] + [groups[n]];
      if groups[n].key == Miscellaneous then rest
      else
        assert forall g :: g in rest ==> g in groups[..n];
        rest + [groups[n]]
  }

  /** A group as a record of `images.json`, its images sorted by name. */
  function ToCategory(g: Group, le: (string, string) -> bool, displayName: string -> string): (c: Category)
    requires TotalPreorder(le)
    ensures c.category == g.key && c.displayName == displayName(g.key)
    ensures multiset(c.images) == multiset(g.images) && SortedBy(c.images, ByKey(NameOf, le))
  {
    ByKeyPreorder(NameOf, le);
    Category(g.key, displayName(g.key), Sort(g.images, ByKey(NameOf, le)))
  }

  lemma PermutationMembers<T>(a: seq<T>, b: seq<T>)
    requires multiset(a) == multiset(b)
    ensures forall x :: x in a <==> x in b
  {
    forall x ensures x in a <==> x in b {
      assert x in a <==> x in multiset(a);
      assert x in b <==> x in multiset(b);
    }
  }

  /** With distinct keys, the group holding a key is the one `FindGroup` returns. */
  lemma FoundIsOnly(groups: seq<Group>, g: Group)
    requires DistinctBy(groups, KeyOf) && g in groups
    ensures FindGroup(groups, g.key) >= 0 && groups[FindGroup(groups, g.key)] == g
  {
    var j :| 0 <= j < |groups| && groups[j] == g;
    var f := FindGroup(groups, g.key);
    assert f >= 0;
  }

  /** The records before the final sort, one per visible group. */
  function Records(kept: seq<Group>, le: (string, string) -> bool, displayName: string -> string): (cats: seq<Category>)
    requires TotalPreorder(le)
    ensures |cats| == |kept|
    ensures forall i :: 0 <= i < |kept| ==> cats[i] == ToCategory(kept[i], le, displayName)
  {
    seq(|kept|, i requires 0 <= i < |kept| => ToCategory(kept[i], le, displayName))
  }

  /**
   * `catalogArray` / `catalog_array`: one record per group other than `Miscellaneous`, made by
   * `ToCategory`, with distinct ids, sorted by display name.
   */
  function Build(groups: seq<Group>, le: (string, string) -> bool, displayName: string -> string): (r: seq<Category>)
    requires TotalPreorder(le) && DistinctBy(groups, KeyOf)
    ensures SortedBy(r, ByKey(DisplayNameOf, le))
    ensures UniqueIds(r)
    ensures forall c :: c in r ==> c.category != Miscellaneous && HasGroup(groups, c.category)
    ensures forall c :: c in r ==> c == ToCategory(groups[FindGroup(groups, c.category)], le, displayName)
    ensures forall g :: g in groups && g.key != Miscellaneous ==> ToCategory(g, le, displayName) in r
  {
    var kept := Visible(groups);
    var cats := Records(kept, le, displayName);
    ByKeyPreorder(DisplayNameOf, le);
    var r := Sort(cats, ByKey(DisplayNameOf, le));
    assert DistinctBy(cats, CategoryIdOf) by {
      forall i, j | 0 <= i < j < |cats| ensures CategoryIdOf(cats[i]) != CategoryIdOf(cats[j]) {
        assert KeyOf(kept[i]) != KeyOf(kept[j]);
      }
    }
    SortDistinct(cats, ByKey(DisplayNameOf, le), CategoryIdOf);
    PermutationMembers(r, cats);
    BuildMembers(groups, kept, cats, r, le, displayName);
    r
  }

  lemma BuildMembers(groups: seq<Group>, kept: seq<Group>, cats: seq<Category>, r: seq<Category>,
                     le: (string, string) -> bool, displayName: string -> string)
    requires TotalPreorder(le) && DistinctBy(groups, KeyOf) && DistinctBy(r, CategoryIdOf)
    requires forall g :: g in kept <==> g in groups && g.key != Miscellaneous
    requires |cats| == |kept| && forall i :: 0 <= i < |kept| ==> cats[i] == ToCategory(kept[i], le, displayName)
    requires forall c :: c in r <==> c in cats
    ensures UniqueIds(r)
    ensures forall c :: c in r ==> c.category != Miscellaneous && HasGroup(groups, c.category)
    ensures forall c :: c in r ==> c == ToCategory(groups[FindGroup(groups, c.category)], le, displayName)
    ensures forall g :: g in groups && g.key != Miscellaneous ==> ToCategory(g, le, displayName) in r
  {
    forall k, l | 0 <= k < l < |r| ensures r[k].category != r[l].category {
      assert CategoryIdOf(r[k]) != CategoryIdOf(r[l]);
    }
    forall c | c in r
      ensures c.category != Miscellaneous && HasGroup(groups, c.category)
      ensures c == ToCategory(groups[FindGroup(groups, c.category)], le, displayName)
    {
      var i :| 0 <= i < |cats| && cats[i] == c;
      assert kept[i] in kept;
      FoundIsOnly(groups, kept[i]);
    }
    forall g | g in groups && g.key != Miscellaneous ensures ToCategory(g, le, displayName) in r {
      var i :| 0 <= i < |kept| && kept[i] == g;
      assert cats[i] in cats;
    }
  }
}

=== FILE: catalog_store.dfy ===
/**
 * The catalog as the page loads it, the flattened `allImages` list built in `init`, and the
 * lookups the router uses: `catalog.find`, `findImageByIdentifier`, `getImageIndexInFiltered`
 * and the category filter of `openCategory`.
 */
module CatalogStore {
  import opened Wrappers

  /** One entry of a category's `images` array in `images.json`. */
  datatype Image = Image(path: string, name: string, filename: string)

  /** One record of `images.json`. */
  datatype Category = Category(category: string, displayName: string, images: seq<Image>)

  /** An element of `allImages`: an image tagged with its owning category. */
  datatype Photo = Photo(path: string, name: string, filename: string, category: string, displayName: string)

  function Tag(cat: Category, img: Image): Photo {
    Photo(img.path, img.name, img.filename, cat.category, cat.displayName)
  }

  /** The photos contributed by one category, in its own order. */
  function TagAll(cat: Category): (r: seq<Photo>)
    ensures |r| == |cat.images|
    ensures forall j :: 0 <= j < |r| ==> r[j] == Tag(cat, cat.images[j])
  {
    seq(|cat.images|, j requires 0 <= j < |cat.images| => Tag(cat, cat.images[j]))
  }

  /** Reference definition of `allImages`: each category's photos, category after category. */
  function Flatten(catalog: seq<Category>): seq<Photo>
    decreases |catalog|
  {
    if |catalog| == 0 then [] else Flatten(catalog[..|catalog| - 1]) + TagAll(catalog[|catalog| - 1])
  }

  /** Sum of the per-category image counts. */
  function TotalImages(catalog: seq<Category>): nat
    decreases |catalog|
  {
    if |catalog| == 0 then 0 else TotalImages(catalog[..|catalog| - 1]) + |catalog[|catalog| - 1].images|
  }

  /** The flattened list holds exactly as many photos as the categories hold images. */
  lemma {:induction false} FlattenLength(catalog: seq<Category>)
    ensures |Flatten(catalog)| == TotalImages(catalog)
    decreases |catalog|
  {
    if |catalog| > 0 {
      FlattenLength(catalog[..|catalog| - 1]);
    }
  }

  /** The nested `forEach` of `init` that builds `allImages`. */
  method FlattenCatalog(catalog: seq<Category>) returns (allImages: seq<Photo>)
    ensures allImages == Flatten(catalog)
    ensures |allImages| == TotalImages(catalog)
  {
    allImages := [];
    var k := 0;
    while k < |catalog|
      invariant 0 <= k <= |catalog|
      invariant allImages == Flatten(catalog[..k])
    {
      var cat := catalog[k];
      var j := 0;
      while j < |cat.images|
        invariant 0 <= j <= |cat.images|
        invariant allImages == Flatten(catalog[..k]) + TagAll(cat)[..j]
      {
        allImages := allImages + [Tag(cat, cat.images[j])];
        j := j + 1;
      }
      assert catalog[..k + 1][..k] == catalog[..k];
      assert TagAll(cat)[..j] == TagAll(cat);
      k := k + 1;
    }
    assert catalog[..k] == catalog;
    FlattenLength(catalog);
  }

  /** The photo is the one named by the identifier pair. */
  predicate Matches(p: Photo, category: string, name: string) {
    p.category == category && p.name == name
  }

  /**
   * `findIndex` for the identifier pair: the first matching position, or -1 when nothing
   * matches.
   */
  function IndexOf(s: seq<Photo>, category: string, name: string): (r: int)
    ensures -1 <= r < |s|
    ensures r >= 0 ==> Matches(s[r], category, name)
    ensures r >= 0 ==> forall k :: 0 <= k < r ==> !Matches(s[k], category, name)
    ensures r == -1 <==> forall k :: 0 <= k < |s| ==> !Matches(s[k], category, name)
    decreases |s|
  {
    if |s| == 0 then -1
    else if Matches(s[0], category, name) then 0
    else
      var k := IndexOf(s[1..], category, name);
      if k == -1 then -1 else k + 1
  }

  /** `findImageByIdentifier`: the first photo of `allImages` with that identifier pair. */
  function FindImage(allImages: seq<Photo>, category: string, name: string): (r: Option<Photo>)
    ensures r.Some? ==> r.value in allImages && Matches(r.value, category, name)
    ensures r.None? <==> forall p :: p in allImages ==> !Matches(p, category, name)
  {
    var k := IndexOf(allImages, category, name);
    if k == -1 then None else Some(allImages[k])
  }

  /** `getImageIndexInFiltered`: where a photo's identifier pair first occurs in the selection. */
  function IndexInFiltered(filtered: seq<Photo>, image: Photo): (r: int)
    ensures -1 <= r < |filtered|
    ensures r >= 0 ==> Matches(filtered[r], image.category, image.name)
    ensures r >= 0 ==> forall k :: 0 <= k < r ==> !Matches(filtered[k], image.category, image.name)
    ensures r == -1 <==> forall p :: p in filtered ==> !Matches(p, image.category, image.name)
  {
    IndexOf(filtered, image.category, image.name)
  }

  /** `catalog.find(cat => cat.category === id)`: the first record with that id. */
  function FindCategory(catalog: seq<Category>, id: string): (r: Option<Category>)
    ensures r.Some? ==> r.value in catalog && r.value.category == id
    ensures r.None? <==> forall c :: c in catalog ==> c.category != id
    decreases |catalog|
  {
    if |catalog| == 0 then None
    else if catalog[0].category == id then Some(catalog[0])
    else FindCategory(catalog[1..], id)
  }

  /** `allImages.filter(img => img.category === id)`. */
  function FilterByCategory(allImages: seq<Photo>, id: string): (r: seq<Photo>)
    ensures forall p :: p in r <==> p in allImages && p.category == id
    ensures |r| <= |allImages|
    decreases |allImages|
  {
    if |allImages| == 0 then []
    else
      var rest := FilterByCategory(allImages[..|allImages| - 1], id);
      var last := allImages[|allImages| - 1];
      assert allImages == allImages[..|allImages| - 1] + [last];
      if last.category == id then rest + [last] else rest
  }

  lemma {:induction false} FilterAppend(a: seq<Photo>, b: seq<Photo>, id: string)
    ensures FilterByCategory(a + b, id) == FilterByCategory(a, id) + FilterByCategory(b, id)
    decreases |b|
  {
    if |b| == 0 {
      assert a + b == a;
    } else {
      var b' := b[..|b| - 1];
      assert (a + b)[..|a + b| - 1] == a + b';
      FilterAppend(a, b', id);
    }
  }

  /** Filtering one category's photos keeps all of them or none of them. */
  lemma {:induction false} FilterTagAll(cat: Category, id: string)
    ensures FilterByCategory(TagAll(cat), id) == if cat.category == id then TagAll(cat) else []
  {
    FilterUniform(TagAll(cat), id);
  }

  lemma {:induction false} FilterUniform(s: seq<Photo>, id: string)
    requires forall k, l :: 0 <= k < l < |s| ==> s[k].category == s[l].category
    ensures FilterByCategory(s, id) == if |s| > 0 && s[0].category == id then s else []
    decreases |s|
  {
    if |s| > 1 {
      FilterUniform(s[..|s| - 1], id);
      assert s[..|s| - 1] + [s[|s| - 1]] == s;
    }
  }

  /** No two records of the catalog share an id. */
  predicate UniqueIds(catalog: seq<Category>) {
    forall k, l :: 0 <= k < l < |catalog| ==> catalog[k].category != catalog[l].category
  }

  /**
   * Category isolation and catalog order: when ids are unique, the selection `openCategory`
   * computes for a category is exactly that category's images, in the catalog's own order.
   */
  lemma {:induction false} SelectionIsCategory(catalog: seq<Category>, k: int)
    requires UniqueIds(catalog)
    requires 0 <= k < |catalog|
    ensures FilterByCategory(Flatten(catalog), catalog[k].category) == TagAll(catalog[k])
    decreases |catalog|
  {
    var n := |catalog|;
    var init, last := catalog[..n - 1], catalog[n - 1];
    var id := catalog[k].category;
    FilterAppend(Flatten(init), TagAll(last), id);
    FilterTagAll(last, id);
    assert UniqueIds(init);
    if k == n - 1 {
      FilterAbsent(init, id);
    } else {
      assert init[k] == catalog[k];
      SelectionIsCategory(init, k);
    }
  }

  /** A category id that no record carries selects nothing. */
  lemma {:induction false} FilterAbsent(catalog: seq<Category>, id: string)
    requires forall c :: c in catalog ==> c.category != id
    ensures FilterByCategory(Flatten(catalog), id) == []
    decreases |catalog|
  {
    var n := |catalog|;
    if n > 0 {
      FilterAppend(Flatten(catalog[..n - 1]), TagAll(catalog[n - 1]), id);
      FilterTagAll(catalog[n - 1], id);
      FilterAbsent(catalog[..n - 1], id);
    }
  }

  /** Every photo of the flattened list belongs to a record of the catalog. */
  lemma {:induction false} FlattenOwners(catalog: seq<Category>, p: Photo)
    requires p in Flatten(catalog)
    ensures exists c :: c in catalog && c.category == p.category
    decreases |catalog|
  {
    var n := |catalog|;
    if p in TagAll(catalog[n - 1]) {
      assert catalog[n - 1] in catalog;
    } else {
      FlattenOwners(catalog[..n - 1], p);
      var c :| c in catalog[..n - 1] && c.category == p.category;
      assert c in catalog;
    }
  }
}

=== FILE: catalog_walk.dfy ===
/**
 * The per-file half of the catalog generator, for both ports (`generate-catalog.js` and
 * `generate-catalog.py`): which folders the walk prunes, which files it collects, and how a
 * collected file becomes a (category, image) entry. The walk itself is abstracted to the list
 * of file paths it visits, each relative to the image root and '/'-separated.
 */
module CatalogWalk {
  import opened Text
  import opened Uri
  import opened Route
  import opened CatalogStore

  const Miscellaneous: string := "Miscellaneous"
  const ImageExtensions: seq<string> := ["jpg", "jpeg", "png", "gif"]
  const BaseUrl: string := "https://unmeshjoshi.github.io/phalakpages"

  /** The folder filter, the same in both ports: `scan…`, `…renamed…` and `…test…`, in any case. */
  predicate SkipFolder(name: string) {
    var n := Lower(name);
    StartsWith(n, "scan") || Contains(n, "renamed") || Contains(n, "test")
  }

  /** The lower-cased `name` holds `word` at position `k`. */
  predicate HasWordAt(name: string, word: string, k: nat) {
    k + |word| <= |name| && Lower(name)[k..k + |word|] == word
  }

  /** The lower-cased name contains `word` exactly when it holds it at some position. */
  lemma WordAnywhere(name: string, word: string)
    requires |word| > 0
    ensures Contains(Lower(name), word) <==> exists k: nat :: HasWordAt(name, word, k)
  {
    var low := Lower(name);
    if Contains(low, word) {
      var k := FirstAt(low, word);
      assert HasWordAt(name, word, k);
    }
    if exists k: nat :: HasWordAt(name, word, k) {
      var k: nat :| HasWordAt(name, word, k);
      assert low[k..][..|word|] == word;
      ContainsAt(low, word, k);
    }
  }

  /**
   * A folder is pruned exactly when, in any case, its name starts with `scan` or holds
   * `renamed` or `test` at some position.
   */
  lemma SkipFolderByPosition(name: string)
    ensures SkipFolder(name) <==>
      (|| HasWordAt(name, "scan", 0)
       || (exists k: nat :: HasWordAt(name, "renamed", k))
       || (exists k: nat :: HasWordAt(name, "test", k)))
  {
    WordAnywhere(name, "renamed");
    WordAnywhere(name, "test");
    assert StartsWith(Lower(name), "scan") <==> HasWordAt(name, "scan", 0);
  }

  /** The JavaScript file filter `/\.(jpg|jpeg|png|gif)$/i`: the name ends in one of the extensions. */
  predicate JsIsImage(file: string) {
    exists ext :: ext in ImageExtensions && EndsWith(Lower(file), "." + ext)
  }

  /**
   * How `re.IGNORECASE` compares a character of the name with a letter of the pattern: the
   * character matches when its simple lower-case mapping is that letter, and the pattern's `i`
   * also matches the dotless `ı` (U+0131). Besides `I`, the dotted `İ` (U+0130) lower-cases to
   * `i`, so both fold to `i`. JavaScript's `/i` without the `u` flag folds ASCII letters only.
   */
  function PyFoldChar(c: char): (r: char)
    ensures c != '\U{130}' && c != '\U{131}' ==> r == LowerChar(c)
    ensures LowerChar(c) as int < 128 ==> r == LowerChar(c)
  {
    if c == '\U{130}' || c == '\U{131}' then 'i' else LowerChar(c)
  }

  /** A name folded character by character as the Python pattern sees it. */
  function PyFold(s: string): (r: string)
    ensures |r| == |s|
    ensures forall i :: 0 <= i < |s| ==> r[i] == PyFoldChar(s[i])
  {
    seq(|s|, i requires 0 <= i < |s| => PyFoldChar(s[i]))
  }

  /** `.*\.(ext)` matched from the start of `line`: no newline before the extension's dot. */
  predicate PyLineMatch(line: string) {
    exists ext :: ext in ImageExtensions && EndsWith(PyFold(line), "." + ext)
      && '\n' !in line[..|line| - |ext| - 1]
  }

  /**
   * The Python file filter `re.match(r'.*\.(jpg|jpeg|png|gif)$', file, re.IGNORECASE)`: `.`
   * does not cross a newline, and `$` also matches before one final newline.
   */
  predicate PyIsImage(file: string) {
    PyLineMatch(file) || (|file| > 0 && file[|file| - 1] == '\n' && PyLineMatch(file[..|file| - 1]))
  }

  /** A dot at `n` with none after it is the last dot. */
  lemma LastDotAt(f: string, n: nat)
    requires n < |f| && f[n] == '.' && '.' !in f[n + 1..]
    ensures LastDot(f) == n
  {
  }

  /**
   * For a name and a case-folded copy with their dots in the same places, the copy ends in
   * `.ext`, for a dot-free `ext`, exactly when the text after the last dot folds to `ext`.
   */
  lemma EndsWithExtension(file: string, folded: string, ext: string)
    requires |folded| == |file| && forall k :: 0 <= k < |file| ==> (folded[k] == '.' <==> file[k] == '.')
    requires '.' !in ext
    ensures EndsWith(folded, "." + ext) <==> LastDot(file) >= 0 && folded[LastDot(file) + 1..] == ext
  {
    var d := LastDot(file);
    if EndsWith(folded, "." + ext) {
      var n := |file| - |ext| - 1;
      assert folded[n] == ("." + ext)[0];
      forall k | n + 1 <= k < |file| ensures file[k] != '.' {
        assert folded[k] == ext[k - n - 1];
      }
      assert '.' !in file[n + 1..];
      LastDotAt(file, n);
      assert folded[n + 1..] == folded[|folded| - |ext| - 1..][1..];
    }
    if d >= 0 && folded[d + 1..] == ext {
      assert folded[d] == '.' && d == |folded| - |ext| - 1;
      assert folded[d..] == [folded[d]] + folded[d + 1..];
      assert folded[d..] == "." + ext;
    }
  }

  /**
   * The JavaScript filter looks at the text after the last dot: a name is an image exactly
   * when that text, lower-cased, is one of the extensions.
   */
  lemma JsIsImageByLastDot(file: string)
    ensures JsIsImage(file) <==> LastDot(file) >= 0 && Lower(file)[LastDot(file) + 1..] in ImageExtensions
  {
    if JsIsImage(file) {
      var ext :| ext in ImageExtensions && EndsWith(Lower(file), "." + ext);
      JsExtensionAtLastDot(file, ext);
    }
    if LastDot(file) >= 0 && Lower(file)[LastDot(file) + 1..] in ImageExtensions {
      JsExtensionAtLastDot(file, Lower(file)[LastDot(file) + 1..]);
    }
  }

  /** One extension at a time: the lower-cased name ends in it exactly when its last dot opens it. */
  lemma JsExtensionAtLastDot(file: string, ext: string)
    requires ext in ImageExtensions
    ensures EndsWith(Lower(file), "." + ext) <==> LastDot(file) >= 0 && Lower(file)[LastDot(file) + 1..] == ext
  {
    LowerKeepsDots(file);
    ExtensionDotFree(ext);
    EndsWithExtension(file, Lower(file), ext);
  }

  /** No extension holds a dot. */
  lemma ExtensionDotFree(ext: string)
    requires ext in ImageExtensions
    ensures '.' !in ext
  {
  }

  /** ASCII lower-casing keeps every dot and makes no new one. */
  lemma LowerKeepsDots(file: string)
    ensures forall k :: 0 <= k < |file| ==> (Lower(file)[k] == '.' <==> file[k] == '.')
  {
  }

  /** Python's fold keeps every dot and makes no new one. */
  lemma FoldKeepsDots(file: string)
    ensures forall k :: 0 <= k < |file| ==> (PyFold(file)[k] == '.' <==> file[k] == '.')
  {
  }

  /**
   * On a name without a newline the Python filter, too, looks only at the text after the
   * last dot, folded as `re.IGNORECASE` folds it.
   */
  lemma PyIsImageByLastDot(file: string)
    requires '\n' !in file
    ensures PyIsImage(file) <==> LastDot(file) >= 0 && PyFold(file)[LastDot(file) + 1..] in ImageExtensions
  {
    var fold, d := PyFold(file), LastDot(file);
    FoldKeepsDots(file);
    if |file| > 0 {
      assert file[|file| - 1] in file;
    }
    if PyLineMatch(file) {
      var ext :| ext in ImageExtensions && EndsWith(fold, "." + ext) && '\n' !in file[..|file| - |ext| - 1];
      ExtensionDotFree(ext);
      EndsWithExtension(file, fold, ext);
    }
    if d >= 0 && fold[d + 1..] in ImageExtensions {
      var ext := fold[d + 1..];
      ExtensionDotFree(ext);
      EndsWithExtension(file, fold, ext);
      assert '\n' !in file[..|file| - |ext| - 1] by {
        assert forall j :: 0 <= j < |file| - |ext| - 1 ==> file[..|file| - |ext| - 1][j] == file[j];
      }
    }
  }

  /** No character that only Python's case folding maps to `i`. */
  predicate NoDottedOrDotlessI(s: string) {
    forall k :: 0 <= k < |s| ==> s[k] != '\U{130}' && s[k] != '\U{131}'
  }

  /** Python's fold is ASCII lower-casing on a name without `İ` or `ı`. */
  lemma FoldIsLower(s: string)
    requires NoDottedOrDotlessI(s)
    ensures PyFold(s) == Lower(s)
  {
  }

  /** An extension the JavaScript filter sees at the end of a newline-free name, Python sees too. */
  lemma JsMatchIsPyMatch(file: string, ext: string)
    requires '\n' !in file && ext in ImageExtensions && EndsWith(Lower(file), "." + ext)
    ensures PyLineMatch(file)
  {
    var low, fold := Lower(file), PyFold(file);
    var n := |file| - |ext| - 1;
    forall k | n <= k < |file| ensures fold[k] == low[k] {
      assert low[k] == ("." + ext)[k - n];
    }
    assert fold[n..] == low[n..];
    assert forall k | 0 <= k < n :: file[..n][k] == file[k];
    assert '\n' !in file[..n];
  }

  /**
   * What the JavaScript filter accepts, the Python filter accepts too, when the name holds no
   * newline; the converse holds when the name also holds no `İ` or `ı`.
   */
  lemma FileFiltersAgree(file: string)
    requires '\n' !in file
    ensures JsIsImage(file) ==> PyIsImage(file)
    ensures NoDottedOrDotlessI(file) ==> (PyIsImage(file) <==> JsIsImage(file))
  {
    if JsIsImage(file) {
      var ext :| ext in ImageExtensions && EndsWith(Lower(file), "." + ext);
      JsMatchIsPyMatch(file, ext);
    }
    if NoDottedOrDotlessI(file) && PyIsImage(file) {
      FoldIsLower(file);
      if |file| > 0 {
        assert file[|file| - 1] in file;
      }
      assert PyLineMatch(file);
    }
  }

  /**
   * The ports disagree on a `.gif` name spelled with `İ` or `ı`: Python's case folding takes
   * either for the `i`, JavaScript's does not, so such a file is collected by the Python port
   * only.
   */
  lemma FileFiltersDifferOnDottedI(stem: string, i: char)
    requires '\n' !in stem && (i == '\U{130}' || i == '\U{131}')
    ensures PyIsImage(stem + ".g" + [i] + "f") && !JsIsImage(stem + ".g" + [i] + "f")
  {
    var f := stem + ".g" + [i] + "f";
    var n := |stem|;
    var fold, low := PyFold(f), Lower(f);
    assert fold[n..] == ".gif";
    assert f[..n] == stem;
    assert PyLineMatch(f) by {
      assert "gif" in ImageExtensions && EndsWith(fold, "." + "gif");
    }
    assert low[|f| - 2] == i && low[|f| - 1] == 'f';
    forall ext | ext in ImageExtensions ensures !EndsWith(low, "." + ext) {
      if ext == "gif" {
        assert ("." + ext)[2] == 'i';
      } else {
        assert ("." + ext)[|ext|] != 'f';
      }
    }
  }

  /**
   * The ports disagree on a name ending in a newline: Python's `$` also matches before it, so
   * an image name followed by a newline is collected by the Python port only.
   */
  lemma FileFiltersDifferOnTrailingNewline(file: string)
    requires '\n' !in file && JsIsImage(file)
    ensures PyIsImage(file + "\n") && !JsIsImage(file + "\n")
  {
    FileFiltersAgree(file);
    var f := file + "\n";
    assert f[..|f| - 1] == file;
    var low := Lower(f);
    assert low[|low| - 1] == '\n';
    forall ext | ext in ImageExtensions ensures !EndsWith(low, "." + ext) {
      assert ("." + ext)[|ext|] != '\n';
    }
  }

  /**
   * The ports disagree on a name with a newline inside it: JavaScript's `$` only looks at the
   * end, while Python's `.*` does not cross the newline, so such a name is collected by the
   * JavaScript port only.
   */
  lemma FileFiltersDifferOnEmbeddedNewline(head: string, tail: string)
    requires '\n' !in tail && JsIsImage(tail)
    ensures JsIsImage(head + "\n" + tail) && !PyIsImage(head + "\n" + tail)
  {
    var f := head + "\n" + tail;
    JsImageAfterAnything(head + "\n", tail);
    assert f[|head|] == '\n';
    NoLineMatchAcrossNewline(f, |head|);
    LastNotNewline(head + "\n", tail);
  }

  /** A name ending in a non-empty newline-free part does not end in a newline. */
  lemma LastNotNewline(head: string, tail: string)
    requires '\n' !in tail && |tail| > 0
    ensures (head + tail)[|head + tail| - 1] != '\n'
  {
    assert (head + tail)[|head + tail| - 1] == tail[|tail| - 1];
  }

  /** The JavaScript filter only reads the end of the name. */
  lemma JsImageAfterAnything(head: string, tail: string)
    requires JsIsImage(tail)
    ensures JsIsImage(head + tail) && |tail| > 0
  {
    var f := head + tail;
    var ext :| ext in ImageExtensions && EndsWith(Lower(tail), "." + ext);
    assert Lower(f)[|f| - |ext| - 1..] == Lower(tail)[|tail| - |ext| - 1..];
  }

  /** Python's `.*` does not cross a newline, so a name holding one does not match from the start. */
  lemma NoLineMatchAcrossNewline(f: string, k: nat)
    requires k < |f| && f[k] == '\n'
    ensures !PyLineMatch(f)
  {
    forall e | e in ImageExtensions && EndsWith(PyFold(f), "." + e)
      ensures '\n' in f[..|f| - |e| - 1]
    {
      NewlineBeforeExtension(f, k, e);
    }
  }

  /** A newline in a name that folds to `.e` at its end lies before the extension's dot. */
  lemma NewlineBeforeExtension(f: string, k: nat, e: string)
    requires k < |f| && f[k] == '\n' && e in ImageExtensions && EndsWith(PyFold(f), "." + e)
    ensures '\n' in f[..|f| - |e| - 1]
  {
    var n := |f| - |e| - 1;
    assert PyFold(f)[k] == '\n';
    assert f[..n][k] == '\n';
  }

  /** A walked path survives the pruning when none of its folders is skipped. */
  predicate KeptByWalk(rel: string) {
    var parts := Split(rel, '/');
    forall k :: 0 <= k < |parts| - 1 ==> !SkipFolder(parts[k])
  }

  /** The files `getAllImages` collects, in walk order. */
  function CollectJs(walk: seq<string>): (r: seq<string>)
    ensures forall rel :: rel in r <==> rel in walk && KeptByWalk(rel) && JsIsImage(LastPiece(rel, '/'))
    decreases |walk|
  {
    if |walk| == 0 then []
    else
      var rest := CollectJs(walk[1..]);
      assert walk == [walk[0]] + walk[1..];
      if KeptByWalk(walk[0]) && JsIsImage(LastPiece(walk[0], '/')) then [walk[0]] + rest else rest
  }

  /** The files `get_all_images` collects, in walk order. */
  function CollectPy(walk: seq<string>): (r: seq<string>)
    ensures forall rel :: rel in r <==> rel in walk && KeptByWalk(rel) && PyIsImage(LastPiece(rel, '/'))
    decreases |walk|
  {
    if |walk| == 0 then []
    else
      var rest := CollectPy(walk[1..]);
      assert walk == [walk[0]] + walk[1..];
      if KeptByWalk(walk[0]) && PyIsImage(LastPiece(walk[0], '/')) then [walk[0]] + rest else rest
  }

  /** The category of a path relative to the image root: its first folder, or `Miscellaneous`. */
  function CategoryOf(relative: string): (r: string)
    ensures '/' !in relative ==> r == Miscellaneous
    ensures '/' in relative ==> '/' !in r && StartsWith(relative, r + "/")
  {
    var parts := Split(relative, '/');
    SplitJoin(relative, '/');
    if |parts| == 1 then Miscellaneous
    else
      assert relative == parts[0] + ['/'] + Join(parts[1..], '/');
      assert relative[..|parts[0]| + 1] == parts[0] + "/";
      parts[0]
  }

  /** A file directly in the image root lands in `Miscellaneous`; any other in its top folder. */
  lemma CategoryOfPath(folder: string, rest: string)
    requires '/' !in folder
    ensures CategoryOf(folder) == Miscellaneous
    ensures CategoryOf(folder + "/" + rest) == folder
  {
    SplitNoSeparator(folder, '/');
    SplitAfterPiece(folder, '/', rest);
  }

  /** A collected file's category is never a folder the walk prunes. */
  lemma CategoryNeverSkipped(rel: string)
    requires KeptByWalk(rel)
    ensures CategoryOf(rel) == Miscellaneous || !SkipFolder(CategoryOf(rel))
  {
  }

  /** The image path the JavaScript walk yields: `path.join` drops the leading `./`. */
  function JsImagePath(rel: string): string {
    "phalakimages/" + rel
  }

  /** The image path the Python walk yields: `os.path.join` keeps the root as written. */
  function PyImagePath(rel: string): string {
    "./phalakimages/" + rel
  }

  /**
   * The category `generate-catalog.js` computes, as written. The root prefix is never
   * stripped, because the normalised path does not contain `./phalakimages/`: every image,
   * at any depth, lands in `phalakimages`.
   */
  function JsCategory(rel: string): (r: string)
    ensures r == "phalakimages"
  {
    var pat := "./phalakimages/";
    ReplaceFirstKeepsPrefix("phalakimages/", rel, pat, "");
    var rest := ReplaceFirst(rel, pat, "");
    assert "phalakimages/" + rest == "phalakimages" + ['/'] + rest;
    SplitAfterPiece("phalakimages", '/', rest);
    CategoryOf(ReplaceFirst(JsImagePath(rel), pat, ""))
  }

  /**
   * The category `generate-catalog.py` computes: with the root stripped, the top folder of
   * the relative path, for paths that do not repeat the root prefix.
   */
  function PyCategory(rel: string): (r: string)
    ensures !Contains(rel, "./phalakimages/") ==> r == CategoryOf(rel)
  {
    var pat := "./phalakimages/";
    assert PyImagePath(rel) == pat + rel;
    ReplaceAllLeading(rel, pat, "");
    CategoryOf(ReplaceAll(PyImagePath(rel), pat, ""))
  }

  /** Every file inside a top folder other than `phalakimages` gets the wrong category in the JavaScript port. */
  lemma JsCategoryIsWrong(folder: string, rest: string)
    requires '/' !in folder && folder != "phalakimages"
    ensures JsCategory(folder + "/" + rest) != CategoryOf(folder + "/" + rest)
  {
    CategoryOfPath(folder, rest);
  }

  /** Position of the last '.', or -1. */
  function LastDot(f: string): (d: int)
    ensures -1 <= d < |f|
    ensures d >= 0 ==> f[d] == '.' && '.' !in f[d + 1..]
    ensures d == -1 ==> '.' !in f
    decreases |f|
  {
    if |f| == 0 then -1
    else if f[|f| - 1] == '.' then |f| - 1
    else
      var d := LastDot(f[..|f| - 1]);
      assert f == f[..|f| - 1] + [f[|f| - 1]];
      d
  }

  /** `path.basename(p, path.extname(p))` for a basename `f`: Node strips from the last dot, unless it opens the name. */
  function JsStem(f: string): (r: string)
    ensures StartsWith(f, r)
    ensures r != f ==> |r| > 0 && f[|r|] == '.' && '.' !in f[|r| + 1..]
    ensures r == f ==> LastDot(f) <= 0 || f == ".."
  {
    var d := LastDot(f);
    if d <= 0 || f == ".." then f else f[..d]
  }

  /** Every character is a dot. */
  predicate AllDots(s: string) {
    forall k :: 0 <= k < |s| ==> s[k] == '.'
  }

  /** `os.path.splitext(f)[0]`: Python strips from the last dot, unless only dots precede it. */
  function PyStem(f: string): (r: string)
    ensures StartsWith(f, r)
    ensures r != f ==> !AllDots(r) && f[|r|] == '.' && '.' !in f[|r| + 1..]
    ensures r == f ==> LastDot(f) == -1 || AllDots(f[..LastDot(f)])
  {
    var d := LastDot(f);
    if d == -1 || AllDots(f[..d]) then f else f[..d]
  }

  /** Both ports strip exactly the extension from an ordinary file name. */
  lemma StemStripsExtension(stem: string, ext: string)
    requires |stem| > 0 && stem[0] != '.' && '.' !in ext
    ensures JsStem(stem + "." + ext) == stem
    ensures PyStem(stem + "." + ext) == stem
  {
    var f := stem + "." + ext;
    assert f[|stem|] == '.';
    assert f[|stem| + 1..] == ext;
    var d := LastDot(f);
    assert d == |stem|;
    assert f[..d] == stem;
    assert !AllDots(f[..d]) by {
      assert f[..d][0] == stem[0];
    }
  }

  /** The ports disagree on names of dots before the extension. */
  lemma StemsDifferOnLeadingDots()
    ensures JsStem("..jpg") == "." && PyStem("..jpg") == "..jpg"
  {
    var f := "..jpg";
    assert LastDot(f) == 1 by {
      assert LastDot(f[..4]) == 1 by {
        assert LastDot(f[..3]) == 1;
      }
    }
  }

  /** The record `generate-catalog.js` pushes for a file. */
  function JsImage(rel: string): (r: Image)
    ensures r.filename == LastPiece(rel, '/') && r.name == JsStem(r.filename)
    ensures !Contains(rel, "./") ==> r.path == "phalakimages/" + rel
  {
    var p := JsImagePath(rel);
    var filename := LastPiece(p, '/');
    FilenameField(rel);
    var img := Image(ReplaceFirst(p, "./", ""), JsStem(filename), filename);
    if Contains(rel, "./") then img else JsPathField(rel); img
  }

  /** The record `generate-catalog.py` appends for a file. */
  function PyImage(rel: string): (r: Image)
    ensures r.filename == LastPiece(rel, '/') && r.name == PyStem(r.filename)
    ensures !Contains(rel, "./") ==> r.path == "phalakimages/" + rel
  {
    var p := PyImagePath(rel);
    var filename := LastPiece(p, '/');
    FilenameField(rel);
    var img := Image(ReplaceAll(p, "./", ""), PyStem(filename), filename);
    if Contains(rel, "./") then img else PyPathField(rel); img
  }

  /** Splitting after a '/'-free leading folder loses that folder and nothing else at the end. */
  lemma LastPieceAfterFolder(folder: string, rest: string)
    requires '/' !in folder
    ensures LastPiece(folder + "/" + rest, '/') == LastPiece(rest, '/')
  {
    SplitAfterPiece(folder, '/', rest);
  }

  /** The JavaScript port's `path` drops nothing from a path below the root free of `./`. */
  lemma JsPathField(rel: string)
    requires !Contains(rel, "./")
    ensures ReplaceFirst(JsImagePath(rel), "./", "") == "phalakimages/" + rel
  {
    ReplaceFirstKeepsPrefix("phalakimages/", rel, "./", "");
  }

  /** The Python port's `path` drops the leading `./` and nothing else. */
  lemma PyPathField(rel: string)
    requires !Contains(rel, "./")
    ensures ReplaceAll(PyImagePath(rel), "./", "") == "phalakimages/" + rel
  {
    assert PyImagePath(rel) == "./" + ("phalakimages/" + rel);
    ReplaceAllLeading("phalakimages/" + rel, "./", "");
    ReplaceAllKeepsPrefix("phalakimages/", rel, "./", "");
  }

  /** Both ports take the basename of the full path, which is the basename of the relative one. */
  lemma FilenameField(rel: string)
    ensures LastPiece(JsImagePath(rel), '/') == LastPiece(rel, '/')
    ensures LastPiece(PyImagePath(rel), '/') == LastPiece(rel, '/')
  {
    assert JsImagePath(rel) == "phalakimages" + "/" + rel;
    LastPieceAfterFolder("phalakimages", rel);
    assert PyImagePath(rel) == "." + "/" + ("phalakimages/" + rel);
    LastPieceAfterFolder(".", "phalakimages/" + rel);
  }

  /**
   * In both ports an ordinary file keeps its path under the root as `path`, its basename as
   * `filename`, and the basename without its extension as `name`.
   */
  lemma ImageRecordFields(rel: string, stem: string, ext: string)
    requires !Contains(rel, "./")
    requires LastPiece(rel, '/') == stem + "." + ext
    requires |stem| > 0 && stem[0] != '.' && '.' !in ext
    ensures JsImage(rel) == Image("phalakimages/" + rel, stem, stem + "." + ext)
    ensures PyImage(rel) == Image("phalakimages/" + rel, stem, stem + "." + ext)
  {
    StemStripsExtension(stem, ext);
  }

  /**
   * The ports disagree on `path` when two folders on the way end in a dot, as in
   * `a./b./x.jpg`: JavaScript's `replace('./', '')` removes only the first `./`, Python's
   * removes every one.
   */
  lemma PathsDifferOnDottedFolders(a: string, b: string, rest: string)
    requires '.' !in a && '.' !in b && !Contains(rest, "./")
    ensures JsImage(a + "./" + b + "./" + rest).path == "phalakimages/" + a + b + "./" + rest
    ensures PyImage(a + "./" + b + "./" + rest).path == "phalakimages/" + a + b + rest
  {
    var pat, root := "./", "phalakimages/";
    var head := root + a;
    assert '.' !in head by {
      assert forall j :: 0 <= j < |head| ==> head[j] == if j < |root| then root[j] else a[j - |root|];
    }
    var rel := a + pat + b + pat + rest;
    var tail := b + (pat + rest);
    assert rel == a + (pat + tail) by {
      Assoc(b, pat, rest);
      Assoc(a + pat, b, pat + rest);
      Assoc(a, pat, tail);
    }
    Assoc(root, a, pat + tail);
    JsPathAfterHead(head, tail);
    assert head + tail == root + a + b + pat + rest by {
      Assoc(head, b, pat + rest);
      Assoc(head + b, pat, rest);
    }
    assert PyImagePath(rel) == pat + (head + (pat + tail)) by {
      assert "./phalakimages/" == pat + root;
      Assoc(pat, root, rel);
    }
    PyPathAfterHead(head, b, rest);
    assert PyImage(rel).path == head + (b + rest);
    Assoc(head, b, rest);
  }

  /** JavaScript's `replace` drops the first `./`, which follows a dot-free head. */
  lemma JsPathAfterHead(head: string, tail: string)
    requires '.' !in head
    ensures ReplaceFirst(head + ("./" + tail), "./", "") == head + tail
  {
    ReplaceFirstKeepsPrefix(head, "./" + tail, "./", "");
    assert ("./" + tail)[2..] == tail;
  }

  /** Python's `replace` drops the leading `./` and the two after the dot-free parts. */
  lemma PyPathAfterHead(head: string, b: string, rest: string)
    requires '.' !in head && '.' !in b && !Contains(rest, "./")
    ensures ReplaceAll("./" + (head + ("./" + (b + ("./" + rest)))), "./", "") == head + (b + rest)
  {
    var pat := "./";
    ReplaceAllLeading(head + (pat + (b + (pat + rest))), pat, "");
    ReplaceAllKeepsPrefix(head, pat + (b + (pat + rest)), pat, "");
    ReplaceAllLeading(b + (pat + rest), pat, "");
    ReplaceAllKeepsPrefix(b, pat + rest, pat, "");
    ReplaceAllLeading(rest, pat, "");
  }

  /** Concatenation regroups. */
  lemma Assoc(x: string, y: string, z: string)
    ensures x + (y + z) == (x + y) + z
  {
  }

  /** The path of the share page below the site's base address. */
  function PagePath(category: string, name: string): string {
    "image/" + category + "/" + name
  }

  /** The share page address the generator writes into page metadata: the category and name are not encoded. */
  function PageUrl(category: string, name: string): (r: string)
    ensures StartsWith(r, BaseUrl + "/")
    ensures r[|BaseUrl| + 1..] == ImageHash(category, name)[1..]
        <==> ((forall i :: 0 <= i < |category| ==> !Escaped(category[i]))
          && (forall i :: 0 <= i < |name| ==> !Escaped(name[i])))
  {
    var r := BaseUrl + "/" + PagePath(category, name);
    PagePathMatchesHash(category, name);
    assert r[..|BaseUrl| + 1] == BaseUrl + "/" && r[|BaseUrl| + 1..] == PagePath(category, name);
    r
  }

  /** Two '/'-joined pairs are equal when each left part is no shorter than its partner. */
  lemma JoinedPairsEqual(a: string, b: string, c: string, d: string)
    requires |a| <= |c| && |b| <= |d|
    requires a + "/" + b == c + "/" + d
    ensures a == c && b == d
  {
    var j := a + "/" + b;
    assert |a| == |c|;
    assert a == j[..|a|] && c == j[..|c|];
    assert b == j[|a| + 1..] && d == j[|c| + 1..];
  }

  /**
   * The share page path spells the same route as the in-page image hash exactly when neither
   * the category nor the name holds a character the hash encoder escapes.
   */
  lemma PagePathMatchesHash(category: string, name: string)
    ensures (PagePath(category, name) == ImageHash(category, name)[1..])
        <==> ((forall i :: 0 <= i < |category| ==> !Escaped(category[i]))
          && (forall i :: 0 <= i < |name| ==> !Escaped(name[i])))
  {
    ImageHashTail(category, name);
    PagePathsEqual(category, name, Encode(category), Encode(name));
    EncodeIdentity(category);
    EncodeIdentity(name);
  }

  /** Past its '#', the image hash is the page path of the encoded category and name. */
  lemma ImageHashTail(category: string, name: string)
    ensures ImageHash(category, name)[1..] == PagePath(Encode(category), Encode(name))
  {
    var c, n := Encode(category), Encode(name);
    var h := ImageHash(category, name);
    assert h == ImagePrefix + (c + ['/'] + n);
    assert h[1..] == "image/" + c + "/" + n;
  }

  /** Page paths of parts no longer than their partners agree only when the parts do. */
  lemma PagePathsEqual(a: string, b: string, c: string, d: string)
    requires |a| <= |c| && |b| <= |d|
    ensures PagePath(a, b) == PagePath(c, d) <==> a == c && b == d
  {
    if PagePath(a, b) == PagePath(c, d) {
      var lhs, rhs := "image/" + a, "image/" + c;
      assert lhs + "/" + b == rhs + "/" + d;
      JoinedPairsEqual(lhs, b, rhs, d);
      assert a == lhs[6..] && c == rhs[6..];
    }
  }
}

=== FILE: cyclic.dfy ===
/**
 * The wrapping index arithmetic of `nextImage` and `prevImage`, kept apart from the view so
 * that its modular reasoning stays small.
 */
module Cyclic {

  /**
   * `(i + 1) % n`, the index `nextImage` moves to. The page only steps from a valid index,
   * where JavaScript's truncating `%` and Dafny's agree.
   */
  function NextIndex(i: int, n: int): (r: int)
    requires 0 <= i && 0 < n
    ensures 0 <= r < n
  {
    (i + 1) % n
  }

  /** `(i - 1 + n) % n`, the index `prevImage` moves to. */
  function PrevIndex(i: int, n: int): (r: int)
    requires 0 <= i && 0 < n
    ensures 0 <= r < n
  {
    (i - 1 + n) % n
  }

  /** Stepping forward and then back returns to the start. */
  lemma NextThenPrev(i: int, n: int)
    requires 0 <= i < n
    ensures PrevIndex(NextIndex(i, n), n) == i
  {
    if i + 1 == n {
      ModUnique(i + 1, 1, 0, n);
      ModUnique(n - 1, 0, n - 1, n);
    } else {
      ModUnique(i + 1, 0, i + 1, n);
      ModUnique(i + n, 1, i, n);
    }
  }

  /** Stepping back and then forward returns to the start. */
  lemma PrevThenNext(i: int, n: int)
    requires 0 <= i < n
    ensures NextIndex(PrevIndex(i, n), n) == i
  {
    if i == 0 {
      ModUnique(n - 1, 0, n - 1, n);
      ModUnique(n, 1, 0, n);
    } else {
      ModUnique(i - 1 + n, 1, i - 1, n);
      ModUnique(i, 0, i, n);
    }
  }

  /** Stepping forward and then back, or back and then forward, returns to the start. */
  lemma StepsAreInverse(i: int, n: int)
    requires 0 <= i < n
    ensures PrevIndex(NextIndex(i, n), n) == i
    ensures NextIndex(PrevIndex(i, n), n) == i
  {
    NextThenPrev(i, n);
    PrevThenNext(i, n);
  }

  /** The two ends of the selection wrap onto each other. */
  lemma StepsWrap(n: int)
    requires 0 < n
    ensures NextIndex(n - 1, n) == 0 && PrevIndex(0, n) == n - 1
  {
  }

  lemma MulAtLeast(d: int, n: int)
    requires d >= 1 && n > 0
    ensures d * n >= n
  {
  }

  /** The remainder is the unique `r` in `[0, n)` with `x == q * n + r`. */
  lemma ModUnique(x: int, q: int, r: int, n: int)
    requires 0 < n && 0 <= r < n && x == q * n + r
    ensures x % n == r
  {
    var q', r' := x / n, x % n;
    assert x == q' * n + r';
    assert (q - q') * n == r' - r;
    if q - q' >= 1 {
      MulAtLeast(q - q', n);
    } else if q' - q >= 1 {
      MulAtLeast(q' - q, n);
    }
  }

  lemma ModStep(a: int, n: int)
    requires 0 <= a && 0 < n
    ensures ((a % n) + 1) % n == (a + 1) % n
  {
    var q, r := a / n, a % n;
    assert a == q * n + r;
    if r + 1 < n {
      ModUnique(a + 1, q, r + 1, n);
    } else {
      assert a + 1 == (q + 1) * n + 0;
      ModUnique(a + 1, q + 1, 0, n);
    }
  }

  /** The index reached from `i` after `k` steps forward. */
  function Advance(i: int, k: nat, n: int): (r: int)
    requires 0 <= i && 0 < n
    ensures 0 <= r
    decreases k
  {
    if k == 0 then i else NextIndex(Advance(i, k - 1, n), n)
  }

  /** `k` steps forward from a valid index land `k` places further on, modulo `n`. */
  lemma {:induction false} AdvanceIsModular(i: int, k: nat, n: int)
    requires 0 <= i < n
    ensures Advance(i, k, n) == (i + k) % n
    decreases k
  {
    if k == 0 {
      ModUnique(i, 0, i, n);
    } else {
      var a := i + (k - 1);
      AdvanceIsModular(i, k - 1, n);
      ModStep(a, n);
      assert Advance(i, k, n) == NextIndex(a % n, n);
      assert a + 1 == i + k;
    }
  }


  /** `n` steps forward around a cycle of `n` come back to the start. */
  lemma AdvanceFullCircle(i: int, n: int)
    requires 0 <= i < n
    ensures Advance(i, n, n) == i
  {
    AdvanceIsModular(i, n, n);
    ModUnique(i + n, 1, i, n);
  }
}

=== FILE: generator.dfy ===
/**
 * The two catalog generators end to end: walk, file, group, sort. The JavaScript port as
 * written files every image under `phalakimages`; `FixedJsCatalog` is that port with the
 * root prefix stripped as intended, and `PyCatalog` is the Python port.
 */
module Generator {
  import opened Ordering
  import opened CatalogStore
  import opened CatalogWalk
  import opened CatalogBuild
  import opened Route
  import opened Viewer
  import opened CardOrder

  /** The entries `generate-catalog.js` files, as written. */
  function JsEntries(walk: seq<string>): (r: seq<Entry>)
    ensures |r| == |CollectJs(walk)|
    ensures forall i :: 0 <= i < |r| ==> r[i] == Entry(JsCategory(CollectJs(walk)[i]), JsImage(CollectJs(walk)[i]))
  {
    var files := CollectJs(walk);
    seq(|files|, i requires 0 <= i < |files| => Entry(JsCategory(files[i]), JsImage(files[i])))
  }

  /** The entries of the JavaScript port once the category is taken below the image root. */
  function FixedJsEntries(walk: seq<string>): (r: seq<Entry>)
    ensures |r| == |CollectJs(walk)|
    ensures forall i :: 0 <= i < |r| ==> r[i] == Entry(CategoryOf(CollectJs(walk)[i]), JsImage(CollectJs(walk)[i]))
  {
    var files := CollectJs(walk);
    seq(|files|, i requires 0 <= i < |files| => Entry(CategoryOf(files[i]), JsImage(files[i])))
  }

  /** The entries `generate-catalog.py` files. */
  function PyEntries(walk: seq<string>): (r: seq<Entry>)
    ensures |r| == |CollectPy(walk)|
    ensures forall i :: 0 <= i < |r| ==> r[i] == Entry(PyCategory(CollectPy(walk)[i]), PyImage(CollectPy(walk)[i]))
  {
    var files := CollectPy(walk);
    seq(|files|, i requires 0 <= i < |files| => Entry(PyCategory(files[i]), PyImage(files[i])))
  }

  /** The catalog records a list of entries turns into. */
  function CatalogOf(entries: seq<Entry>, le: (string, string) -> bool, displayName: string -> string): seq<Category>
    requires TotalPreorder(le)
  {
    Build(GroupByCategory(entries), le, displayName)
  }

  /**
   * `images.json` as `generate-catalog.js` writes it, for a collation order `le`: at most one
   * category, `phalakimages`, holding every collected image, and none when nothing is collected.
   */
  function JsCatalog(walk: seq<string>, le: (string, string) -> bool): (r: seq<Category>)
    requires TotalPreorder(le)
    ensures |r| == if |CollectJs(walk)| == 0 then 0 else 1
    ensures forall c :: c in r ==>
      c.category == "phalakimages" && multiset(c.images) == multiset(ImagesOf(JsEntries(walk), "phalakimages"))
  {
    JsEntriesAllUnderRoot(walk);
    SingleKeyCatalog(JsEntries(walk), le, DisplayNameJs, "phalakimages");
    CatalogOf(JsEntries(walk), le, DisplayNameJs)
  }

  /**
   * `images.json` as the JavaScript port evidently means to write it: one non-empty record
   * per top folder that holds a collected file, under its friendly name.
   */
  function FixedJsCatalog(walk: seq<string>, le: (string, string) -> bool): (r: seq<Category>)
    requires TotalPreorder(le)
    ensures UniqueIds(r)
    ensures forall c :: c in r ==> c.displayName == DisplayNameJs(c.category) && |c.images| > 0
    ensures forall key :: Listed(r, key) <==> key != Miscellaneous && SomeFileIn(CollectJs(walk), key)
  {
    FixedJsKeys(walk, le);
    CatalogContents(FixedJsEntries(walk), le, DisplayNameJs);
    CatalogHasNoEmptyCategory(FixedJsEntries(walk), le, DisplayNameJs);
    CatalogOf(FixedJsEntries(walk), le, DisplayNameJs)
  }

  /**
   * `images.json` as `generate-catalog.py` writes it: one non-empty record per category a
   * collected file is filed under, other than `Miscellaneous`, under its friendly name.
   */
  function PyCatalog(walk: seq<string>): (r: seq<Category>)
    ensures UniqueIds(r)
    ensures forall c :: c in r ==> c.displayName == DisplayNamePy(c.category) && |c.images| > 0
    ensures forall key :: Listed(r, key) <==> key != Miscellaneous && SomePyFileIn(CollectPy(walk), key)
  {
    CodePointIsTotalOrder();
    PyKeys(walk, CodePointLe);
    CatalogContents(PyEntries(walk), CodePointLe, DisplayNamePy);
    CatalogHasNoEmptyCategory(PyEntries(walk), CodePointLe, DisplayNamePy);
    CatalogOf(PyEntries(walk), CodePointLe, DisplayNamePy)
  }

  /** Some record of `r` has id `key`. */
  predicate Listed(r: seq<Category>, key: string) {
    exists c :: c in r && c.category == key
  }

  /** Some file of `files` has top folder `key`. */
  predicate SomeFileIn(files: seq<string>, key: string) {
    exists j :: 0 <= j < |files| && CategoryOf(files[j]) == key
  }

  /** The Python port computes `key` for some file of `files`. */
  predicate SomePyFileIn(files: seq<string>, key: string) {
    exists j :: 0 <= j < |files| && PyCategory(files[j]) == key
  }

  /** The corrected JavaScript port files something under `key` exactly when a collected file's top folder is `key`. */
  lemma FixedJsFiled(walk: seq<string>, key: string)
    ensures Filed(FixedJsEntries(walk), key) <==> SomeFileIn(CollectJs(walk), key)
  {
    var files, entries := CollectJs(walk), FixedJsEntries(walk);
    if Filed(entries, key) {
      var j :| 0 <= j < |entries| && entries[j].category == key;
      assert entries[j].category == CategoryOf(files[j]);
    }
    if SomeFileIn(files, key) {
      var j :| 0 <= j < |files| && CategoryOf(files[j]) == key;
      assert entries[j].category == CategoryOf(files[j]);
    }
  }

  /** The Python port files something under `key` exactly when it computes `key` for a collected file. */
  lemma PyFiled(walk: seq<string>, key: string)
    ensures Filed(PyEntries(walk), key) <==> SomePyFileIn(CollectPy(walk), key)
  {
    var files, entries := CollectPy(walk), PyEntries(walk);
    if Filed(entries, key) {
      var j :| 0 <= j < |entries| && entries[j].category == key;
      assert entries[j].category == PyCategory(files[j]);
    }
    if SomePyFileIn(files, key) {
      var j :| 0 <= j < |files| && PyCategory(files[j]) == key;
      assert entries[j].category == PyCategory(files[j]);
    }
  }

  /** The corrected JavaScript port lists a record for exactly the top folders of collected files. */
  lemma FixedJsKeys(walk: seq<string>, le: (string, string) -> bool)
    requires TotalPreorder(le)
    ensures forall key :: (Listed(CatalogOf(FixedJsEntries(walk), le, DisplayNameJs), key)
      <==> key != Miscellaneous && SomeFileIn(CollectJs(walk), key))
  {
    forall key ensures Listed(CatalogOf(FixedJsEntries(walk), le, DisplayNameJs), key)
      <==> key != Miscellaneous && SomeFileIn(CollectJs(walk), key)
    {
      FixedJsFiled(walk, key);
      ListedIffFiled(FixedJsEntries(walk), le, DisplayNameJs, key);
    }
  }

  /** The Python port lists a record for exactly the categories it computes for collected files. */
  lemma PyKeys(walk: seq<string>, le: (string, string) -> bool)
    requires TotalPreorder(le)
    ensures forall key :: (Listed(CatalogOf(PyEntries(walk), le, DisplayNamePy), key)
      <==> key != Miscellaneous && SomePyFileIn(CollectPy(walk), key))
  {
    forall key ensures Listed(CatalogOf(PyEntries(walk), le, DisplayNamePy), key)
      <==> key != Miscellaneous && SomePyFileIn(CollectPy(walk), key)
    {
      PyFiled(walk, key);
      ListedIffFiled(PyEntries(walk), le, DisplayNamePy, key);
    }
  }

  /** The records of a catalog are listed exactly for the filed keys other than `Miscellaneous`. */
  lemma ListedIffFiled(entries: seq<Entry>, le: (string, string) -> bool, displayName: string -> string, key: string)
    requires TotalPreorder(le)
    ensures Listed(CatalogOf(entries, le, displayName), key) <==> key != Miscellaneous && Filed(entries, key)
  {
    CatalogContents(entries, le, displayName);
  }

  /**
   * What any generated catalog holds: one record per category other than `Miscellaneous`
   * that some file is filed under, with that category's friendly name and exactly its
   * images, sorted by name; the records are sorted by display name.
   */
  lemma CatalogContents(entries: seq<Entry>, le: (string, string) -> bool, displayName: string -> string)
    requires TotalPreorder(le)
    ensures var r := CatalogOf(entries, le, displayName);
      && UniqueIds(r)
      && SortedBy(r, ByKey(DisplayNameOf, le))
      && (forall c :: c in r ==> c.displayName == displayName(c.category))
      && (forall c :: c in r ==> SortedBy(c.images, ByKey(NameOf, le)))
      && (forall c :: c in r ==> multiset(c.images) == multiset(ImagesOf(entries, c.category)))
      && (forall key :: (exists c :: c in r && c.category == key) <==> key != Miscellaneous && Filed(entries, key))
  {
    var groups := GroupByCategory(entries);
    var r := CatalogOf(entries, le, displayName);
    forall key ensures (exists c :: c in r && c.category == key) <==> key != Miscellaneous && Filed(entries, key) {
      if key != Miscellaneous && Filed(entries, key) {
        assert HasGroup(groups, key);
        var i :| 0 <= i < |groups| && groups[i].key == key;
        assert groups[i] in groups;
        assert ToCategory(groups[i], le, displayName) in r;
      }
    }
  }

  /** Every record of a generated catalog has at least one image. */
  lemma CatalogHasNoEmptyCategory(entries: seq<Entry>, le: (string, string) -> bool, displayName: string -> string)
    requires TotalPreorder(le)
    ensures forall c :: c in CatalogOf(entries, le, displayName) ==> |c.images| > 0
  {
    var groups := GroupByCategory(entries);
    forall c | c in CatalogOf(entries, le, displayName) ensures |c.images| > 0 {
      var i := FindGroup(groups, c.category);
      assert |multiset(c.images)| == |multiset(groups[i].images)|;
    }
  }

  /**
   * A generated catalog always loads in the viewer: every card is drawn, and whether the
   * route is handled without an error depends only on the address the page was opened at.
   */
  lemma GeneratedCatalogLoads(entries: seq<Entry>, le: (string, string) -> bool, displayName: string -> string,
                              hash: string, galleryShownAtLoad: bool, collate: (string, string) -> bool)
    requires TotalPreorder(le) && TotalPreorder(collate)
    ensures var r := Init(CatalogOf(entries, le, displayName), hash, galleryShownAtLoad, collate);
      && r.session.view.cards == SortedCards(CatalogOf(entries, le, displayName), collate)
      && (r.error.None? <==> ParseHashRoute(hash).Success?)
  {
    CatalogHasNoEmptyCategory(entries, le, displayName);
  }

  lemma FirstTwoDiffer(r: seq<Category>)
    requires UniqueIds(r) && |r| > 1
    ensures r[0].category != r[1].category
  {
  }

  /** Records with distinct ids that all carry one id are at most one. */
  lemma SingleId(r: seq<Category>, id: string)
    requires UniqueIds(r) && forall c :: c in r ==> c.category == id
    ensures |r| <= 1
  {
    if |r| > 1 {
      FirstTwoDiffer(r);
      assert false;
    }
  }

  /** As written, the JavaScript port files every collected image under the root folder's name. */
  lemma JsEntriesAllUnderRoot(walk: seq<string>)
    ensures forall e :: e in JsEntries(walk) ==> e.category == "phalakimages"
  {
  }

  /**
   * Entries all filed under one key other than `Miscellaneous` make one record holding all
   * their images, or none when there are no entries.
   */
  lemma SingleKeyCatalog(entries: seq<Entry>, le: (string, string) -> bool, displayName: string -> string, key: string)
    requires TotalPreorder(le) && key != Miscellaneous
    requires forall e :: e in entries ==> e.category == key
    ensures |CatalogOf(entries, le, displayName)| == if |entries| == 0 then 0 else 1
    ensures forall c :: c in CatalogOf(entries, le, displayName) ==>
      c.category == key && multiset(c.images) == multiset(ImagesOf(entries, key))
  {
    var r := CatalogOf(entries, le, displayName);
    CatalogContents(entries, le, displayName);
    forall c | c in r ensures c.category == key {
      assert exists c' :: c' in r && c'.category == c.category;
      var j :| 0 <= j < |entries| && entries[j].category == c.category;
      assert entries[j] in entries;
    }
    SingleId(r, key);
    if |entries| > 0 {
      assert entries[0] in entries;
      assert Filed(entries, key);
      var c :| c in r && c.category == key;
    }
  }

  /** Every entry filed outside `Miscellaneous` is listed in its category's record. */
  lemma EntryListed(entries: seq<Entry>, le: (string, string) -> bool, displayName: string -> string, e: Entry)
    requires TotalPreorder(le)
    requires e in entries && e.category != Miscellaneous
    ensures exists c :: c in CatalogOf(entries, le, displayName) && c.category == e.category && e.image in c.images
  {
    var j :| 0 <= j < |entries| && entries[j] == e;
    assert Filed(entries, e.category);
    CatalogContents(entries, le, displayName);
    var c :| c in CatalogOf(entries, le, displayName) && c.category == e.category;
    assert e.image in ImagesOf(entries, e.category);
    assert e.image in multiset(c.images);
  }

  /**
   * The corrected JavaScript port files each image under its top folder: a file in a folder
   * is listed in that folder's record.
   */
  lemma FixedJsFilesByFolder(walk: seq<string>, le: (string, string) -> bool, folder: string, rest: string)
    requires TotalPreorder(le)
    requires '/' !in folder && folder != Miscellaneous
    requires folder + "/" + rest in CollectJs(walk)
    ensures exists c :: c in FixedJsCatalog(walk, le) && c.category == folder && JsImage(folder + "/" + rest) in c.images
  {
    var files := CollectJs(walk);
    var entries := FixedJsEntries(walk);
    var i :| 0 <= i < |files| && files[i] == folder + "/" + rest;
    CategoryOfPath(folder, rest);
    assert entries[i] == Entry(folder, JsImage(folder + "/" + rest));
    EntryListed(entries, le, DisplayNameJs, entries[i]);
  }
}

=== FILE: input.dfy ===
/**
 * The input surface of the page: the swipe decision, the keydown switch, and one dispatcher
 * that feeds every click, key, swipe and back/forward move into the view-state machine.
 * Which element can receive a click is decided by the page's layout; the model reduces it to
 * the lightbox overlay covering everything else while it is open, and to which of the category
 * view and the gallery is shown.
 */
module Input {
  import opened Wrappers
  import opened Route
  import opened CatalogStore
  import opened BrowserHistory
  import opened Viewer

  /** The swipe threshold, in pixels. */
  const SwipeThreshold: int := 50

  datatype Swipe = SwipeNext | SwipePrev | NoSwipe

  function Abs(x: int): int {
    if x < 0 then -x else x
  }

  /** `handleSwipe`: what a touch moving from `startX` to `endX` asks for. */
  function SwipeAction(startX: int, endX: int): (a: Swipe)
    ensures a == NoSwipe <==> -SwipeThreshold <= startX - endX <= SwipeThreshold
    ensures a == SwipeNext <==> startX - endX > SwipeThreshold
    ensures a == SwipePrev <==> startX - endX < -SwipeThreshold
  {
    var diff := startX - endX;
    if Abs(diff) > SwipeThreshold then (if diff > 0 then SwipeNext else SwipePrev) else NoSwipe
  }

  /** The touch handler of the lightbox: `handleSwipe` applied to the session. */
  function HandleSwipe(s: Session, startX: int, endX: int): (r: Session)
    requires Wf(s) && s.view.lightboxActive
    ensures Wf(r)
    ensures SwipeAction(startX, endX) == NoSwipe ==> r == s
    ensures SwipeAction(startX, endX) == SwipeNext ==> r == NextImage(s)
    ensures SwipeAction(startX, endX) == SwipePrev ==> r == PrevImage(s)
  {
    match SwipeAction(startX, endX)
    case SwipeNext => NextImage(s)
    case SwipePrev => PrevImage(s)
    case NoSwipe => s
  }

  /** The `keydown` listener: only Escape and the two arrows do anything, and only over the lightbox. */
  function HandleKey(s: Session, key: string): (r: Session)
    requires Wf(s)
    ensures Wf(r)
    ensures !s.view.lightboxActive ==> r == s
    ensures s.view.lightboxActive && key == "Escape" ==> r == CloseLightbox(s)
    ensures s.view.lightboxActive && key == "ArrowRight" ==> r == NextImage(s)
    ensures s.view.lightboxActive && key == "ArrowLeft" ==> r == PrevImage(s)
    ensures key != "Escape" && key != "ArrowRight" && key != "ArrowLeft" ==> r == s
  {
    if !s.view.lightboxActive then s
    else if key == "Escape" then CloseLightbox(s)
    else if key == "ArrowRight" then NextImage(s)
    else if key == "ArrowLeft" then PrevImage(s)
    else s
  }

  datatype Event =
    | ClickCategoryCard(cat: Category)
    | ClickBackToCategories
    | ClickGalleryItem(position: int)
    | ClickCarouselItem(position: int)
    | ClickClose          // the close button, the back button or the overlay around the image
    | ClickNext
    | ClickPrev
    | KeyDown(key: string)
    | TouchSwipe(startX: int, endX: int)
    | HistoryBack         // popstate after the browser's back button
    | HistoryForward      // popstate after the browser's forward button

  /**
   * Whether the event reaches a listener: page content is covered while the lightbox is open,
   * the cards sit in the category view, which is hidden while the gallery is shown, and the
   * gallery items exist only in the shown gallery.
   */
  predicate Reachable(s: Session, e: Event) {
    match e
    case ClickCategoryCard(cat) => !s.view.lightboxActive && !s.view.galleryShown && cat in s.view.cards
    case ClickBackToCategories => !s.view.lightboxActive
    case ClickGalleryItem(i) => !s.view.lightboxActive && s.view.galleryShown && 0 <= i < |s.view.filtered|
    case ClickCarouselItem(i) => s.view.lightboxActive && 0 <= i < |s.view.filtered|
    case ClickClose => s.view.lightboxActive
    case ClickNext => s.view.lightboxActive
    case ClickPrev => s.view.lightboxActive
    case TouchSwipe(_, _) => s.view.lightboxActive
    case _ => true
  }

  /** One event handled to completion by its listener. */
  function Step(s: Session, e: Event): (r: Session)
    requires Wf(s)
    ensures Wf(r)
    ensures !Reachable(s, e) ==> r == s
    ensures e.HistoryBack? || e.HistoryForward? ==> r.history.entries == s.history.entries
    ensures e.ClickNext? || e.ClickPrev? || e.TouchSwipe? || (e.KeyDown? && e.key != "Escape") ==>
      |r.history.entries| == |s.history.entries| && r.history.cursor == s.history.cursor
  {
    if !Reachable(s, e) then s
    else
      match e
      case KeyDown(key) => HandleKey(s, key)
      case TouchSwipe(startX, endX) => HandleSwipe(s, startX, endX)
      case HistoryBack => HandleRoute(s.(history := Back(s.history)))
      case HistoryForward => HandleRoute(s.(history := Forward(s.history)))
      case _ => Click(s, e)
  }

  /** A click that reaches its listener. */
  function Click(s: Session, e: Event): (r: Session)
    requires Wf(s) && Reachable(s, e)
    requires !e.KeyDown? && !e.TouchSwipe? && !e.HistoryBack? && !e.HistoryForward?
    ensures Wf(r)
    ensures e.ClickNext? || e.ClickPrev? ==>
      |r.history.entries| == |s.history.entries| && r.history.cursor == s.history.cursor
  {
    if s.view.lightboxActive then LightboxClick(s, e) else PageClick(s, e)
  }

  /** A click on the page behind the lightbox: a category card, the back button or a gallery item. */
  function PageClick(s: Session, e: Event): (r: Session)
    requires Wf(s) && Reachable(s, e) && !s.view.lightboxActive
    requires e.ClickCategoryCard? || e.ClickBackToCategories? || e.ClickGalleryItem?
    ensures Wf(r)
    ensures e.ClickCategoryCard? ==>
      && r.view.galleryShown && r.view.filtered == FilterByCategory(s.view.allImages, e.cat.category)
      && r.history == Push(s.history, CategoryHash(e.cat.category))
      && CurrentRoute(r) == Success(CategoryRoute(e.cat.category))
    ensures e.ClickBackToCategories? ==>
      !r.view.galleryShown && r.history == Push(s.history, HomeHash) && CurrentRoute(r) == Success(Home)
    ensures e.ClickGalleryItem? ==>
      var p := s.view.filtered[e.position];
      && r.view.lightboxActive && r.view.index == e.position
      && r.history == Push(s.history, ImageHash(p.category, p.name))
      && CurrentRoute(r) == Success(ImageRoute(p.category, p.name))
  {
    match e
    case ClickCategoryCard(cat) => OpenCategory(s, cat, true)
    // the listener receives the click event as `updateURL`, which is truthy
    case ClickBackToCategories => ShowCategoryView(s, true)
    case ClickGalleryItem(i) => OpenLightbox(s, i, true)
  }

  /** A click inside the open lightbox: a carousel item, close, next or prev. */
  function LightboxClick(s: Session, e: Event): (r: Session)
    requires Wf(s) && Reachable(s, e) && s.view.lightboxActive
    requires e.ClickCarouselItem? || e.ClickClose? || e.ClickNext? || e.ClickPrev?
    ensures Wf(r)
    ensures e.ClickNext? || e.ClickPrev? ==>
      |r.history.entries| == |s.history.entries| && r.history.cursor == s.history.cursor
    ensures e.ClickClose? ==> !r.view.lightboxActive
    ensures !e.ClickClose? ==> r.view.lightboxActive
  {
    match e
    case ClickCarouselItem(i) => UpdateLightboxImage(s.(view := s.view.(index := i)), true, false)
    case ClickClose => CloseLightbox(s)
    case ClickNext => NextImage(s)
    case ClickPrev => PrevImage(s)
  }

  /** Any run of events keeps the session well formed. */
  function Run(s: Session, events: seq<Event>): (r: Session)
    requires Wf(s)
    ensures Wf(r)
    decreases |events|
  {
    if |events| == 0 then s else Run(Step(s, events[0]), events[1..])
  }

  /** No feedback loop: moving through history and re-handling the route never writes history. */
  lemma {:induction false} BrowsingHistoryWritesNothing(s: Session, events: seq<Event>)
    requires Wf(s)
    requires forall k :: 0 <= k < |events| ==> events[k].HistoryBack? || events[k].HistoryForward?
    ensures Run(s, events).history.entries == s.history.entries
    decreases |events|
  {
    if |events| > 0 {
      BrowsingHistoryWritesNothing(Step(s, events[0]), events[1..]);
    }
  }

  /** Browsing inside the lightbox, by button, key or swipe, never adds a history entry. */
  lemma {:induction false} LightboxBrowsingAddsNoEntry(s: Session, events: seq<Event>)
    requires Wf(s)
    requires forall k :: 0 <= k < |events| ==>
      events[k].ClickNext? || events[k].ClickPrev? || events[k].TouchSwipe?
      || (events[k].KeyDown? && events[k].key != "Escape")
    ensures |Run(s, events).history.entries| == |s.history.entries|
    ensures Run(s, events).history.cursor == s.history.cursor
    decreases |events|
  {
    if |events| > 0 {
      LightboxBrowsingAddsNoEntry(Step(s, events[0]), events[1..]);
    }
  }
}

=== FILE: ordering.dfy ===
/**
 * Orders and sorting. The catalog generator sorts with `localeCompare` in JavaScript and with
 * code-point comparison in Python, and the card list is sorted with a hand-written comparator;
 * all three are stable sorts driven by a total preorder, which is what this module models.
 */
module Ordering {

  /** Every two elements are comparable, and comparison chains. */
  ghost predicate TotalPreorder<T(!new)>(le: (T, T) -> bool) {
    && (forall x, y :: le(x, y) || le(y, x))
    && (forall x, y, z :: le(x, y) && le(y, z) ==> le(x, z))
  }

  /** A total preorder that is also antisymmetric. */
  ghost predicate TotalOrder<T(!new)>(le: (T, T) -> bool) {
    && TotalPreorder(le)
    && (forall x, y :: le(x, y) && le(y, x) ==> x == y)
  }

  /** Non-decreasing under `le`. */
  ghost predicate SortedBy<T>(s: seq<T>, le: (T, T) -> bool) {
    forall i, j :: 0 <= i < j < |s| ==> le(s[i], s[j])
  }

  /** Compares two records through one of their fields. */
  function ByKey<T, K>(key: T -> K, le: (K, K) -> bool): (T, T) -> bool {
    (a: T, b: T) => le(key(a), key(b))
  }

  lemma ByKeyPreorder<T(!new), K(!new)>(key: T -> K, le: (K, K) -> bool)
    requires TotalPreorder(le)
    ensures TotalPreorder(ByKey(key, le))
  {
    var r := ByKey(key, le);
    forall x, y, z | r(x, y) && r(y, z) ensures r(x, z) {
      assert le(key(x), key(y)) && le(key(y), key(z));
    }
  }

  /**
   * `a.localeCompare(b)` as a three-way result, for a collation order `le`: negative, zero
   * or positive as `a` sorts before, together with, or after `b`.
   */
  function Compare3(le: (string, string) -> bool, a: string, b: string): int {
    if le(a, b) then (if le(b, a) then 0 else -1) else 1
  }

  /** Inserts `x` in front of the first element it does not sort after. */
  function Insert<T(!new)>(x: T, s: seq<T>, le: (T, T) -> bool): (r: seq<T>)
    requires TotalPreorder(le) && SortedBy(s, le)
    ensures SortedBy(r, le)
    ensures multiset(r) == multiset(s) + multiset{x}
    decreases |s|
  {
    if |s| == 0 then [x]
    else if le(x, s[0]) then [x] + s
    else
      var t := Insert(x, s[1..], le);
      assert s == [s[0]] + s[1..];
      assert forall k :: 0 <= k < |t| ==> le(s[0], t[k]) by {
        forall k | 0 <= k < |t| ensures le(s[0], t[k]) {
          assert t[k] in multiset(t);
          assert t[k] in multiset(s[1..]) || t[k] == x;
          if t[k] != x {
            var m :| 0 <= m < |s[1..]| && s[1..][m] == t[k];
            assert s[m + 1] == t[k];
          }
        }
      }
      [s[0]] + t
  }

  /** A stable insertion sort: the result is a sorted permutation of the input. */
  function Sort<T(!new)>(s: seq<T>, le: (T, T) -> bool): (r: seq<T>)
    requires TotalPreorder(le)
    ensures SortedBy(r, le)
    ensures multiset(r) == multiset(s)
    ensures |r| == |s|
    decreases |s|
  {
    if |s| == 0 then []
    else
      assert s == [s[0]] + s[1..];
      Insert(s[0], Sort(s[1..], le), le)
  }

  /** No two elements share a key. */
  ghost predicate DistinctBy<T, K>(s: seq<T>, key: T -> K) {
    forall i, j :: 0 <= i < j < |s| ==> key(s[i]) != key(s[j])
  }

  /** A new head whose key no later element shares keeps the keys distinct. */
  lemma DistinctCons<T, K>(h: T, t: seq<T>, key: T -> K)
    requires DistinctBy(t, key) && forall y :: y in t ==> key(y) != key(h)
    ensures DistinctBy([h] + t, key)
  {
    var r := [h] + t;
    forall i, j | 0 <= i < j < |r| ensures key(r[i]) != key(r[j]) {
      assert r[j] == t[j - 1];
      if i > 0 {
        assert r[i] == t[i - 1];
      } else {
        assert t[j - 1] in t;
      }
    }
  }

  lemma InsertMember<T(!new)>(x: T, s: seq<T>, le: (T, T) -> bool, y: T)
    requires TotalPreorder(le) && SortedBy(s, le) && y in Insert(x, s, le)
    ensures y == x || y in s
  {
    assert y in multiset(Insert(x, s, le));
  }

  /** Inserting an element whose key is new keeps the keys distinct. */
  lemma {:induction false} InsertDistinct<T(!new), K>(x: T, s: seq<T>, le: (T, T) -> bool, key: T -> K)
    requires TotalPreorder(le) && SortedBy(s, le) && DistinctBy(s, key)
    requires forall y :: y in s ==> key(y) != key(x)
    ensures DistinctBy(Insert(x, s, le), key)
    decreases |s|
  {
    if |s| == 0 {
    } else if le(x, s[0]) {
      DistinctCons(x, s, key);
    } else {
      var tail := s[1..];
      assert forall y :: y in tail ==> y in s;
      InsertDistinct(x, tail, le, key);
      var t := Insert(x, tail, le);
      forall y | y in t ensures key(y) != key(s[0]) {
        InsertMember(x, tail, le, y);
        if y != x {
          var m :| 0 <= m < |tail| && tail[m] == y;
          assert s[m + 1] == y;
        }
      }
      assert DistinctBy(tail, key);
      DistinctCons(s[0], t, key);
    }
  }

  /** Sorting keeps the keys distinct. */
  lemma {:induction false} SortDistinct<T(!new), K>(s: seq<T>, le: (T, T) -> bool, key: T -> K)
    requires TotalPreorder(le) && DistinctBy(s, key)
    ensures DistinctBy(Sort(s, le), key)
    decreases |s|
  {
    if |s| > 0 {
      assert s == [s[0]] + s[1..];
      SortDistinct(s[1..], le, key);
      var t := Sort(s[1..], le);
      forall y | y in t ensures key(y) != key(s[0]) {
        assert y in multiset(s[1..]);
        var m :| 0 <= m < |s[1..]| && s[1..][m] == y;
        assert s[m + 1] == y;
      }
      InsertDistinct(s[0], t, le, key);
    }
  }

  /** Python's `str` comparison: lexicographic by code point, a prefix first. */
  function CodePointLe(a: string, b: string): bool
    decreases |a|
  {
    if |a| == 0 then true
    else if |b| == 0 then false
    else if a[0] != b[0] then a[0] < b[0]
    else CodePointLe(a[1..], b[1..])
  }

  lemma {:induction false} CodePointTotal(a: string, b: string)
    ensures CodePointLe(a, b) || CodePointLe(b, a)
    decreases |a|
  {
    if |a| > 0 && |b| > 0 && a[0] == b[0] {
      CodePointTotal(a[1..], b[1..]);
    }
  }

  lemma {:induction false} CodePointAntisymmetric(a: string, b: string)
    requires CodePointLe(a, b) && CodePointLe(b, a)
    ensures a == b
    decreases |a|
  {
    if |a| > 0 {
      CodePointAntisymmetric(a[1..], b[1..]);
      assert a == [a[0]] + a[1..] && b == [b[0]] + b[1..];
    }
  }

  lemma {:induction false} CodePointTransitive(a: string, b: string, c: string)
    requires CodePointLe(a, b) && CodePointLe(b, c)
    ensures CodePointLe(a, c)
    decreases |a|
  {
    if |a| > 0 && |b| > 0 && |c| > 0 && a[0] == b[0] && b[0] == c[0] {
      CodePointTransitive(a[1..], b[1..], c[1..]);
    }
  }

  /** Code-point order is a total order, so Python's `sorted` is fully determined by it. */
  lemma CodePointIsTotalOrder()
    ensures TotalOrder(CodePointLe)
  {
    forall a, b ensures CodePointLe(a, b) || CodePointLe(b, a) {
      CodePointTotal(a, b);
    }
    forall a, b, c | CodePointLe(a, b) && CodePointLe(b, c) ensures CodePointLe(a, c) {
      CodePointTransitive(a, b, c);
    }
    forall a, b | CodePointLe(a, b) && CodePointLe(b, a) ensures a == b {
      CodePointAntisymmetric(a, b);
    }
  }
}

=== FILE: route.dfy ===
/**
 * The hash router: the three route shapes the gallery understands, the hashes the page writes
 * for them, and `parseHashRoute`, which reads a hash back into a route.
 */
module Route {
  import opened Wrappers
  import opened Text
  import opened Uri

  datatype Route =
    | Home
    | CategoryRoute(categoryId: string)
    | ImageRoute(category: string, name: string)

  /** What escapes `parseHashRoute`: `decodeURIComponent` throwing on a malformed escape. */
  datatype RouteError = MalformedEscape

  const CategoryPrefix: string := "#category/"
  const ImagePrefix: string := "#image/"

  /**
   * The hash `updateURLForCategory` and `closeLightbox` push for a category: the category
   * prefix, then the encoded id, which holds no further '/'.
   */
  function CategoryHash(categoryId: string): (h: string)
    ensures StartsWith(h, CategoryPrefix) && !StartsWith(h, ImagePrefix)
    ensures '/' !in h[|CategoryPrefix|..]
    ensures |h| >= |CategoryPrefix| + |categoryId|
  {
    var h := CategoryPrefix + Encode(categoryId);
    assert h[..|CategoryPrefix|] == CategoryPrefix && h[|CategoryPrefix|..] == Encode(categoryId);
    assert h[1] == 'c';
    h
  }

  /**
   * The hash `updateURL` and `updateLightboxImage` write for an image: the image prefix, then
   * the encoded category and the encoded name, which the one '/' between them separates.
   */
  function ImageHash(category: string, name: string): (h: string)
    ensures StartsWith(h, ImagePrefix) && !StartsWith(h, CategoryPrefix)
    ensures Split(h[|ImagePrefix|..], '/') == [Encode(category), Encode(name)]
  {
    var c, n := Encode(category), Encode(name);
    ImageHashShape(c, n);
    ImagePrefix + (c + ['/'] + n)
  }

  /** The image prefix followed by two '/'-free parts joined by one '/'. */
  lemma ImageHashShape(c: string, n: string)
    requires '/' !in c && '/' !in n
    ensures StartsWith(ImagePrefix + (c + ['/'] + n), ImagePrefix)
    ensures !StartsWith(ImagePrefix + (c + ['/'] + n), CategoryPrefix)
    ensures Split((ImagePrefix + (c + ['/'] + n))[|ImagePrefix|..], '/') == [c, n]
  {
    var rest := c + ['/'] + n;
    var h := ImagePrefix + rest;
    SplitPair(c, '/', n);
    assert h[..|ImagePrefix|] == ImagePrefix && h[|ImagePrefix|..] == rest;
    assert h[1] == 'i';
  }

  /** `updateURLForHome` pushes the bare path, which leaves the hash empty. */
  const HomeHash: string := ""

  /** `parseHashRoute` applied to `window.location.hash`. */
  function ParseHashRoute(hash: string): (r: Result<Route, RouteError>)
    ensures hash == "" || hash == "#" ==> r == Success(Home)
    ensures !StartsWith(hash, CategoryPrefix) && !StartsWith(hash, ImagePrefix) ==> r == Success(Home)
    ensures r.Success? && r.value.CategoryRoute? ==> StartsWith(hash, CategoryPrefix)
    ensures r.Success? && r.value.ImageRoute? ==> StartsWith(hash, ImagePrefix)
    ensures StartsWith(hash, CategoryPrefix) ==>
      var rest := hash[|CategoryPrefix|..];
      && (r.Failure? <==> !WellEscaped(rest))
      && (r.Success? ==> r.value.CategoryRoute? && Decode(rest) == Some(r.value.categoryId))
    ensures StartsWith(hash, ImagePrefix) ==>
      var parts := Split(hash[|ImagePrefix|..], '/');
      && (|parts| != 2 ==> r == Success(Home))
      && (|parts| == 2 ==> (r.Failure? <==> !WellEscaped(parts[0]) || !WellEscaped(parts[1])))
      && (|parts| == 2 && r.Success? ==>
            r.value.ImageRoute? && Decode(parts[0]) == Some(r.value.category)
            && Decode(parts[1]) == Some(r.value.name))
  {
    if hash == "" || hash == "#" then Success(Home)
    else if StartsWith(hash, CategoryPrefix) then
      DecodeFailsIffMalformed(hash[|CategoryPrefix|..]);
      PrefixesExclusive(hash);
      match Decode(hash[|CategoryPrefix|..])
      case None => Failure(MalformedEscape)
      case Some(id) => Success(CategoryRoute(id))
    else if StartsWith(hash, ImagePrefix) then
      var parts := Split(hash[|ImagePrefix|..], '/');
      if |parts| == 2 then
        DecodeFailsIffMalformed(parts[0]);
        DecodeFailsIffMalformed(parts[1]);
        match Decode(parts[0])
        case None => Failure(MalformedEscape)
        case Some(category) =>
          match Decode(parts[1])
          case None => Failure(MalformedEscape)
          case Some(name) => Success(ImageRoute(category, name))
      else Success(Home)
    else Success(Home)
  }

  /** A hand-typed lower-case escape decodes like the upper-case one the encoder writes. */
  lemma LowerCaseEscapeParses()
    ensures ParseHashRoute("#category/a%2fb") == Success(CategoryRoute("a/b"))
  {
    var h := "#category/a%2fb";
    assert StartsWith(h, CategoryPrefix) && h[|CategoryPrefix|..] == "a%2fb";
    assert "a%2fb"[1..] == "%2fb" && "%2fb"[3..] == "b";
    assert '%' !in "b";
    assert Decode("b") == Some("b");
    assert IsHex('2') && IsHex('f') && HexValue('2') == 2 && HexValue('f') == 15;
    assert (2 * 16 + 15) as char == '/' && ['/'] + "b" == "/b";
    assert Decode("%2fb") == Some("/b");
    assert "a%2fb"[0] == 'a' && ['a'] + "/b" == "a/b";
    assert Decode("a%2fb") == Some("a/b");
  }

  /** A '%' with no digits after it is the malformed escape `decodeURIComponent` throws on. */
  lemma BarePercentFails()
    ensures ParseHashRoute("#category/%") == Failure(MalformedEscape)
  {
    var h := "#category/%";
    assert StartsWith(h, CategoryPrefix) && h[|CategoryPrefix|..] == "%";
    assert MalformedAt("%", 0);
  }

  /** A category hash is never read as an image hash, and the other way round. */
  lemma PrefixesExclusive(hash: string)
    ensures !(StartsWith(hash, CategoryPrefix) && StartsWith(hash, ImagePrefix))
  {
    if StartsWith(hash, CategoryPrefix) {
      assert hash[1] == CategoryPrefix[1];
    }
  }

  /** Round trip for categories: the hash written for any category id parses back to it. */
  lemma CategoryRoundTrip(categoryId: string)
    ensures ParseHashRoute(CategoryHash(categoryId)) == Success(CategoryRoute(categoryId))
  {
    var h := CategoryHash(categoryId);
    assert h[..|CategoryPrefix|] == CategoryPrefix;
    assert h[|CategoryPrefix|..] == Encode(categoryId);
    DecodeEncode(categoryId);
  }

  /**
   * Round trip for images: the hash written for any (category, name) pair parses back to it;
   * the encoder never emits '/', so the remainder splits into exactly two parts.
   */
  lemma ImageRoundTrip(category: string, name: string)
    ensures ParseHashRoute(ImageHash(category, name)) == Success(ImageRoute(category, name))
  {
    var h := ImageHash(category, name);
    var c, n := Encode(category), Encode(name);
    assert h[..|ImagePrefix|] == ImagePrefix;
    assert h != "" && h != "#";
    PrefixesExclusive(h);
    assert h[|ImagePrefix|..] == c + ['/'] + n;
    SplitPair(c, '/', n);
    DecodeEncode(category);
    DecodeEncode(name);
  }

  /** An image hash whose remainder does not hold exactly one '/' is read as home. */
  lemma ImageArityFallsHome(hash: string)
    requires StartsWith(hash, ImagePrefix)
    requires Count(hash[|ImagePrefix|..], '/') != 1
    ensures ParseHashRoute(hash) == Success(Home)
  {
    PrefixesExclusive(hash);
    SplitLength(hash[|ImagePrefix|..], '/');
  }

  /** The hash written when going home parses as home. */
  lemma HomeRoundTrip()
    ensures ParseHashRoute(HomeHash) == Success(Home)
  {
  }
}

=== FILE: text.dfy ===
/**
 * The string primitives the gallery relies on, with the semantics of the JavaScript and
 * Python built-ins they stand for: prefix and infix tests, ASCII lower-casing, `split` on a
 * separator character, and the two flavours of `replace` (JavaScript's replaces the first
 * occurrence of a string pattern, Python's replaces every occurrence).
 */
module Text {

  /** `s.startsWith(p)` / `s.startswith(p)`. */
  predicate StartsWith(s: string, p: string) {
    |p| <= |s| && s[..|p|] == p
  }

  /** `s.endsWith(p)` / `s.endswith(p)`. */
  predicate EndsWith(s: string, p: string) {
    |p| <= |s| && s[|s| - |p|..] == p
  }

  /** `s.includes(p)` / `p in s`. */
  predicate Contains(s: string, p: string)
    decreases |s|
  {
    StartsWith(s, p) || (|s| > 0 && Contains(s[1..], p))
  }

  /** Lower-cases one character; only the ASCII letters are folded. */
  function LowerChar(c: char): char {
    if 'A' <= c <= 'Z' then (c as int + 32) as char else c
  }

  /** `s.toLowerCase()` / `s.lower()`, restricted to ASCII case folding. */
  function Lower(s: string): (r: string)
    ensures |r| == |s|
    ensures forall i :: 0 <= i < |s| ==> r[i] == LowerChar(s[i])
  {
    seq(|s|, i requires 0 <= i < |s| => LowerChar(s[i]))
  }

  /** Number of occurrences of `c` in `s`. */
  function Count(s: string, c: char): nat
    decreases |s|
  {
    if |s| == 0 then 0 else (if s[0] == c then 1 else 0) + Count(s[1..], c)
  }

  /** `s.split(sep)` for a one-character separator: the pieces between the separators. */
  function Split(s: string, sep: char): (parts: seq<string>)
    ensures |parts| >= 1
    ensures forall k :: 0 <= k < |parts| ==> sep !in parts[k]
    ensures |parts| == 1 <==> sep !in s
    decreases |s|
  {
    if |s| == 0 then [""]
    else if s[0] == sep then [""] + Split(s[1..], sep)
    else
      var rest := Split(s[1..], sep);
      assert forall k :: 1 <= k < |rest| ==> rest[k] == rest[1..][k - 1];
      [[s[0]] + rest[0]] + rest[1..]
  }

  /** `parts.join(sep)`: the pieces with one separator between neighbours. */
  function Join(parts: seq<string>, sep: char): string
    requires |parts| >= 1
    decreases |parts|
  {
    if |parts| == 1 then parts[0] else parts[0] + [sep] + Join(parts[1..], sep)
  }

  /** Splitting loses nothing: joining the pieces with the separator gives the text back. */
  lemma {:induction false} SplitJoin(s: string, sep: char)
    ensures Join(Split(s, sep), sep) == s
    decreases |s|
  {
    if |s| > 0 {
      var rest := Split(s[1..], sep);
      SplitJoin(s[1..], sep);
      if s[0] == sep {
        assert Split(s, sep)[1..] == rest;
      } else {
        var parts := Split(s, sep);
        assert parts[1..] == rest[1..];
        if |rest| > 1 {
          assert Join(parts, sep) == [s[0]] + rest[0] + [sep] + Join(rest[1..], sep);
        }
      }
      assert [s[0]] + s[1..] == s;
    }
  }

  /** The last piece of `Split`: the basename of a '/'-separated path. */
  function LastPiece(s: string, sep: char): string {
    var parts := Split(s, sep);
    parts[|parts| - 1]
  }

  /** `s.indexOf(pat)` / `s.find(pat)`: where the first occurrence of `pat` starts, or -1. */
  function FirstAt(s: string, pat: string): (k: int)
    requires |pat| > 0
    ensures -1 <= k
    ensures k >= 0 ==> k + |pat| <= |s| && s[k..k + |pat|] == pat
    ensures k >= 0 ==> !Contains(s[..k + |pat| - 1], pat)
    ensures k == -1 <==> !Contains(s, pat)
    decreases |s|
  {
    if StartsWith(s, pat) then
      ShortNoContains(s[..|pat| - 1], pat);
      0
    else if |s| == 0 then -1
    else
      var k := FirstAt(s[1..], pat);
      if k == -1 then -1
      else
        var before := s[..k + |pat|];
        assert before[..|pat|] == s[..|pat|] && before[1..] == s[1..][..k + |pat| - 1];
        k + 1
  }

  /**
   * JavaScript's `s.replace(pat, rep)` with a string pattern: only the first occurrence is
   * replaced, and a text without one is returned as it is.
   */
  function ReplaceFirst(s: string, pat: string, rep: string): (r: string)
    requires |pat| > 0
    ensures !Contains(s, pat) ==> r == s
    ensures StartsWith(s, pat) ==> r == rep + s[|pat|..]
    decreases |s|
  {
    if |s| < |pat| then s
    else if StartsWith(s, pat) then rep + s[|pat|..]
    else
      assert [s[0]] + s[1..] == s;
      [s[0]] + ReplaceFirst(s[1..], pat, rep)
  }

  /** JavaScript's `replace` keeps the text before the first occurrence and the text after it. */
  lemma {:induction false} ReplaceFirstAt(s: string, pat: string, rep: string)
    requires |pat| > 0 && Contains(s, pat)
    ensures ReplaceFirst(s, pat, rep) == s[..FirstAt(s, pat)] + rep + s[FirstAt(s, pat) + |pat|..]
    decreases |s|
  {
    if !StartsWith(s, pat) {
      var k := FirstAt(s[1..], pat);
      ReplaceFirstAt(s[1..], pat, rep);
      ShiftSlices(s, k, k + |pat|);
    }
  }

  /**
   * Python's `s.replace(pat, rep)`: every non-overlapping occurrence, left to right; a text
   * without one is returned as it is.
   */
  function ReplaceAll(s: string, pat: string, rep: string): (r: string)
    requires |pat| > 0
    ensures !Contains(s, pat) ==> r == s
    ensures StartsWith(s, pat) ==> StartsWith(r, rep)
    decreases |s|
  {
    if |s| < |pat| then s
    else if StartsWith(s, pat) then rep + ReplaceAll(s[|pat|..], pat, rep)
    else
      assert [s[0]] + s[1..] == s;
      [s[0]] + ReplaceAll(s[1..], pat, rep)
  }

  /**
   * Python's `replace` keeps the text before the first occurrence, replaces that occurrence,
   * and carries on in the text after it.
   */
  lemma {:induction false} ReplaceAllAt(s: string, pat: string, rep: string)
    requires |pat| > 0 && Contains(s, pat)
    ensures ReplaceAll(s, pat, rep)
         == s[..FirstAt(s, pat)] + rep + ReplaceAll(s[FirstAt(s, pat) + |pat|..], pat, rep)
    decreases |s|
  {
    if StartsWith(s, pat) {
      ReplaceAllHead(s, pat, rep);
    } else {
      FirstAtTail(s, pat);
      ReplaceAllAt(s[1..], pat, rep);
      ReplaceAllStep(s, pat, rep);
    }
  }

  /** An occurrence at the start is replaced first. */
  lemma ReplaceAllHead(s: string, pat: string, rep: string)
    requires |pat| > 0 && StartsWith(s, pat)
    ensures FirstAt(s, pat) == 0
    ensures ReplaceAll(s, pat, rep)
         == s[..FirstAt(s, pat)] + rep + ReplaceAll(s[FirstAt(s, pat) + |pat|..], pat, rep)
  {
    assert s[..0] == [];
  }

  /** An occurrence that is not at the start is one place further on than in the tail. */
  lemma FirstAtTail(s: string, pat: string)
    requires |pat| > 0 && Contains(s, pat) && !StartsWith(s, pat)
    ensures |s| >= |pat| && Contains(s[1..], pat)
    ensures FirstAt(s, pat) == FirstAt(s[1..], pat) + 1
  {
    if |s| < |pat| {
      ShortNoContains(s, pat);
    }
  }

  /** ReplaceAllAt for a text that does not start with the pattern, given it for the tail. */
  lemma ReplaceAllStep(s: string, pat: string, rep: string)
    requires |pat| > 0 && Contains(s, pat) && !StartsWith(s, pat) && Contains(s[1..], pat)
    requires ReplaceAll(s[1..], pat, rep)
          == s[1..][..FirstAt(s[1..], pat)] + rep + ReplaceAll(s[1..][FirstAt(s[1..], pat) + |pat|..], pat, rep)
    ensures ReplaceAll(s, pat, rep)
         == s[..FirstAt(s, pat)] + rep + ReplaceAll(s[FirstAt(s, pat) + |pat|..], pat, rep)
  {
    FirstAtTail(s, pat);
    ReplaceAllShift(s, pat, rep, FirstAt(s[1..], pat), FirstAt(s, pat));
  }

  /** One step of ReplaceAllAt: a text not starting with the pattern keeps its first character. */
  lemma ReplaceAllShift(s: string, pat: string, rep: string, k: nat, i: nat)
    requires |pat| > 0 && |s| >= |pat| && !StartsWith(s, pat) && k + |pat| < |s| && i == k + 1
    requires ReplaceAll(s[1..], pat, rep) == s[1..][..k] + rep + ReplaceAll(s[1..][k + |pat|..], pat, rep)
    ensures ReplaceAll(s, pat, rep) == s[..i] + rep + ReplaceAll(s[i + |pat|..], pat, rep)
  {
    var t := s[1..];
    ShiftSlices(s, k, k + |pat|);
    var y := ReplaceAll(t[k + |pat|..], pat, rep);
    assert ReplaceAll(s, pat, rep) == [s[0]] + (t[..k] + rep + y);
    Regroup([s[0]], t[..k], rep, y);
  }

  /** Concatenation regroups. */
  lemma Regroup(a: string, x: string, r: string, y: string)
    ensures a + (x + r + y) == a + x + r + y
  {
  }

  /** Slices of the tail, seen from the whole text. */
  lemma ShiftSlices<T>(s: seq<T>, i: nat, j: nat)
    requires 0 < |s| && i <= j < |s|
    ensures s[..i + 1] == [s[0]] + s[1..][..i]
    ensures s[j + 1..] == s[1..][j..]
  {
  }

  /** A text shorter than the pattern does not contain it. */
  lemma {:induction false} ShortNoContains(s: string, p: string)
    requires |s| < |p|
    ensures !Contains(s, p)
    decreases |s|
  {
    if |s| > 0 {
      ShortNoContains(s[1..], p);
    }
  }

  /** An occurrence at any offset is an occurrence. */
  lemma {:induction false} ContainsAt(s: string, p: string, k: nat)
    requires k <= |s| && StartsWith(s[k..], p)
    ensures Contains(s, p)
    decreases k
  {
    if k > 0 {
      assert s[1..][k - 1..] == s[k..];
      ContainsAt(s[1..], p, k - 1);
    }
  }

  /** Splitting yields one more piece than there are separators. */
  lemma {:induction false} SplitLength(s: string, sep: char)
    ensures |Split(s, sep)| == Count(s, sep) + 1
    decreases |s|
  {
    if |s| > 0 {
      SplitLength(s[1..], sep);
    }
  }

  /** A text without the separator is a single piece. */
  lemma {:induction false} SplitNoSeparator(s: string, sep: char)
    requires sep !in s
    ensures Split(s, sep) == [s]
    decreases |s|
  {
    if |s| > 0 {
      assert sep !in s[1..];
      SplitNoSeparator(s[1..], sep);
      assert [s[0]] + s[1..] == s;
    }
  }

  /** A leading separator-free piece followed by `sep` is split off as the first part. */
  lemma {:induction false} SplitAfterPiece(a: string, sep: char, b: string)
    requires sep !in a
    ensures Split(a + [sep] + b, sep) == [a] + Split(b, sep)
    decreases |a|
  {
    if |a| == 0 {
      assert a + [sep] + b == [sep] + b;
      assert ([sep] + b)[1..] == b;
    } else {
      var s := a + [sep] + b;
      assert s[0] == a[0];
      assert s[1..] == a[1..] + [sep] + b;
      SplitAfterPiece(a[1..], sep, b);
      assert [a[0]] + a[1..] == a;
    }
  }

  /** Two separator-free pieces joined by one `sep` split back into exactly those pieces. */
  lemma SplitPair(a: string, sep: char, b: string)
    requires sep !in a && sep !in b
    ensures Split(a + [sep] + b, sep) == [a, b]
  {
    SplitAfterPiece(a, sep, b);
    SplitNoSeparator(b, sep);
  }

  /**
   * A prefix that cannot hold the start of the pattern passes through JavaScript's `replace`
   * untouched: the first occurrence lies after it.
   */
  lemma {:induction false} ReplaceFirstKeepsPrefix(p: string, s: string, pat: string, rep: string)
    requires |pat| > 0 && pat[0] !in p
    ensures ReplaceFirst(p + s, pat, rep) == p + ReplaceFirst(s, pat, rep)
    decreases |p|
  {
    if |p| > 0 {
      var t := p + s;
      assert t[0] == p[0] && t[0] != pat[0];
      assert !StartsWith(t, pat);
      assert t[1..] == p[1..] + s;
      ReplaceFirstKeepsPrefix(p[1..], s, pat, rep);
      assert [p[0]] + p[1..] == p;
    } else {
      assert p + s == s;
    }
  }

  /** A text that begins with the pattern loses that occurrence under Python's `replace`. */
  lemma ReplaceAllLeading(s: string, pat: string, rep: string)
    requires |pat| > 0
    ensures ReplaceAll(pat + s, pat, rep) == rep + ReplaceAll(s, pat, rep)
  {
    assert StartsWith(pat + s, pat);
    assert (pat + s)[|pat|..] == s;
  }

  /** Same as ReplaceFirstKeepsPrefix, for Python's replace-all. */
  lemma {:induction false} ReplaceAllKeepsPrefix(p: string, s: string, pat: string, rep: string)
    requires |pat| > 0 && pat[0] !in p
    ensures ReplaceAll(p + s, pat, rep) == p + ReplaceAll(s, pat, rep)
    decreases |p|
  {
    if |p| > 0 {
      var t := p + s;
      assert t[0] == p[0] && t[0] != pat[0];
      assert !StartsWith(t, pat);
      assert t[1..] == p[1..] + s;
      ReplaceAllKeepsPrefix(p[1..], s, pat, rep);
      assert [p[0]] + p[1..] == p;
    } else {
      assert p + s == s;
    }
  }
}

=== FILE: uri.dfy ===
/**
 * The percent-encoding used for the hash routes: a model of `encodeURIComponent` and
 * `decodeURIComponent`. ASCII characters outside the unreserved set become `%HH` with two
 * upper-case hex digits; characters beyond ASCII are kept as they are (the UTF-8 byte
 * expansion of the real encoder is not modelled). Decoding fails, as the real function throws
 * `URIError`, on a `%` that is not followed by two hex digits of an ASCII code.
 */
module Uri {
  import opened Wrappers
  import opened Text

  /** The characters `encodeURIComponent` never escapes. */
  predicate Unreserved(c: char) {
    || ('A' <= c <= 'Z') || ('a' <= c <= 'z') || ('0' <= c <= '9')
    || c == '-' || c == '_' || c == '.' || c == '!' || c == '~'
    || c == '*' || c == '\'' || c == '(' || c == ')'
  }

  /** The characters the model escapes as `%HH`. */
  predicate Escaped(c: char) {
    (c as int) < 128 && !Unreserved(c)
  }

  function HexDigit(d: int): char
    requires 0 <= d < 16
  {
    if d < 10 then ('0' as int + d) as char else ('A' as int + d - 10) as char
  }

  predicate IsHex(c: char) {
    ('0' <= c <= '9') || ('A' <= c <= 'F') || ('a' <= c <= 'f')
  }

  function HexValue(c: char): (v: int)
    requires IsHex(c)
    ensures 0 <= v < 16
  {
    if '0' <= c <= '9' then c as int - '0' as int
    else if 'A' <= c <= 'F' then c as int - 'A' as int + 10
    else c as int - 'a' as int + 10
  }

  /** Decoding a digit written by the encoder gives the digit back. */
  lemma HexRoundTrip(d: int)
    requires 0 <= d < 16
    ensures IsHex(HexDigit(d)) && HexValue(HexDigit(d)) == d
  {
  }

  function EncodeChar(c: char): (r: string)
    ensures '/' !in r
  {
    if Escaped(c) then ['%', HexDigit(c as int / 16), HexDigit(c as int % 16)] else [c]
  }

  /** `encodeURIComponent(s)`. */
  function Encode(s: string): (r: string)
    ensures '/' !in r
    ensures |r| >= |s|
    decreases |s|
  {
    if |s| == 0 then [] else EncodeChar(s[0]) + Encode(s[1..])
  }

  /**
   * `decodeURIComponent(s)`; `None` where the real function throws `URIError`. Only a '%'
   * can make it fail or change the text, and each escape shortens it.
   */
  function Decode(s: string): (r: Option<string>)
    ensures '%' !in s ==> r == Some(s)
    ensures r.None? ==> '%' in s
    ensures r.Some? ==> |r.value| + 2 * Count(s, '%') == |s|
    decreases |s|
  {
    if |s| == 0 then Some([])
    else if s[0] == '%' then
      if |s| >= 3 && IsHex(s[1]) && IsHex(s[2]) && HexValue(s[1]) < 8 then
        assert s[1..][1..] == s[2..] && s[2..][1..] == s[3..];
        assert Count(s[2..], '%') == Count(s[3..], '%');
        assert Count(s[1..], '%') == Count(s[2..], '%');
        assert Count(s, '%') == 1 + Count(s[3..], '%');
        match Decode(s[3..])
        case None => None
        case Some(t) => Some([(HexValue(s[1]) * 16 + HexValue(s[2])) as char] + t)
      else None
    else
      assert s == [s[0]] + s[1..];
      match Decode(s[1..])
      case None => None
      case Some(t) => Some([s[0]] + t)
  }

  /** A '%' at `i` that does not open an escape of two hex digits for an ASCII code. */
  predicate MalformedAt(s: string, i: int) {
    && 0 <= i < |s| && s[i] == '%'
    && !(i + 2 < |s| && IsHex(s[i + 1]) && IsHex(s[i + 2]) && HexValue(s[i + 1]) < 8)
  }

  /** Every '%' of `s` opens a well-formed escape. */
  predicate WellEscaped(s: string) {
    forall i :: 0 <= i < |s| ==> !MalformedAt(s, i)
  }

  /** Decoding fails exactly when some '%' does not open a well-formed escape. */
  lemma {:induction false} DecodeFailsIffMalformed(s: string)
    ensures Decode(s).None? <==> !WellEscaped(s)
    decreases |s|
  {
    if |s| > 0 {
      if s[0] == '%' {
        if |s| >= 3 && IsHex(s[1]) && IsHex(s[2]) && HexValue(s[1]) < 8 {
          DecodeFailsIffMalformed(s[3..]);
          assert !MalformedAt(s, 0) && !MalformedAt(s, 1) && !MalformedAt(s, 2);
          WellEscapedTail(s, 3);
        } else {
          assert MalformedAt(s, 0);
        }
      } else {
        DecodeFailsIffMalformed(s[1..]);
        assert !MalformedAt(s, 0);
        WellEscapedTail(s, 1);
      }
    }
  }

  /** With no malformed '%' before `k`, the text is well escaped exactly when its tail from `k` is. */
  lemma WellEscapedTail(s: string, k: nat)
    requires k <= |s|
    requires forall j :: 0 <= j < k ==> !MalformedAt(s, j)
    ensures WellEscaped(s) <==> WellEscaped(s[k..])
  {
    forall i ensures MalformedAt(s[k..], i) <==> MalformedAt(s, i + k) {
      if 0 <= i < |s| - k {
        assert s[k..][i] == s[i + k];
        if i + 2 < |s| - k {
          assert s[k..][i + 1] == s[i + k + 1] && s[k..][i + 2] == s[i + k + 2];
        }
      }
    }
    if !WellEscaped(s) {
      var i :| 0 <= i < |s| && MalformedAt(s, i);
      assert MalformedAt(s[k..], i - k);
    }
  }

  /** Decoding undoes encoding, for every string. */
  lemma {:induction false} DecodeEncode(s: string)
    ensures Decode(Encode(s)) == Some(s)
    decreases |s|
  {
    if |s| > 0 {
      var c := s[0];
      var rest := Encode(s[1..]);
      var e := EncodeChar(c) + rest;
      assert Encode(s) == e;
      DecodeEncode(s[1..]);
      if Escaped(c) {
        var hi, lo := c as int / 16, c as int % 16;
        HexRoundTrip(hi);
        HexRoundTrip(lo);
        assert e[0] == '%' && e[1] == HexDigit(hi) && e[2] == HexDigit(lo);
        assert e[3..] == rest;
        assert (hi * 16 + lo) as char == c;
      } else {
        assert e[0] == c && c != '%';
        assert e[1..] == rest;
      }
      assert [c] + s[1..] == s;
    }
  }

  /** The encoder changes a string exactly when the string has a character it escapes. */
  lemma {:induction false} EncodeIdentity(s: string)
    ensures Encode(s) == s <==> forall i :: 0 <= i < |s| ==> !Escaped(s[i])
    decreases |s|
  {
    if |s| > 0 {
      EncodeIdentity(s[1..]);
      assert s == [s[0]] + s[1..];
      if Escaped(s[0]) {
        assert |Encode(s)| == 3 + |Encode(s[1..])|;
      } else {
        assert Encode(s) == [s[0]] + Encode(s[1..]);
        if Encode(s) == s {
          assert Encode(s[1..]) == Encode(s)[1..];
        }
        assert (forall i :: 0 <= i < |s| ==> !Escaped(s[i]))
           <==> (forall i :: 0 <= i < |s[1..]| ==> !Escaped(s[1..][i])) by {
          if forall i :: 0 <= i < |s[1..]| ==> !Escaped(s[1..][i]) {
            forall i | 0 <= i < |s| ensures !Escaped(s[i]) {
              if i > 0 { assert s[i] == s[1..][i - 1]; }
            }
          }
        }
      }
    }
  }
}

=== FILE: viewer.dfy ===
/**
 * The view-state machine of the gallery page: which of the category list and the gallery is
 * shown, whether the lightbox is open, the current selection (`filteredImages`) and the index
 * into it (`currentImageIndex`), together with the session history the page writes into.
 * Every transition takes the flag the page passes to say whether it should also write the URL.
 */
module Viewer {
  import opened Wrappers
  import opened CatalogStore
  import opened Route
  import opened BrowserHistory
  import opened Cyclic
  import opened Ordering
  import opened CardOrder

  datatype View = View(
    catalog: seq<Category>,
    cards: seq<Category>, // the category cards drawn, in drawing order
    allImages: seq<Photo>,
    filtered: seq<Photo>,
    index: int,           // currentImageIndex
    galleryShown: bool,   // galleryView.style.display !== 'none'
    lightboxActive: bool) // lightbox.classList.contains('active')

  datatype Session = Session(view: View, history: History)

  /**
   * What holds of every session the page can reach: every card shows a catalog category,
   * `allImages` is the flattened catalog, the selection is drawn from it, and an open
   * lightbox shows a member of the selection.
   */
  predicate Wf(s: Session) {
    && Valid(s.history)
    && (forall c :: c in s.view.cards ==> c in s.view.catalog)
    && s.view.allImages == Flatten(s.view.catalog)
    && (forall p :: p in s.view.filtered ==> p in s.view.allImages)
    && (s.view.lightboxActive ==> 0 <= s.view.index < |s.view.filtered|)
  }

  /** The route the URL of the current entry names. */
  function CurrentRoute(s: Session): Result<Route, RouteError>
    requires Valid(s.history)
  {
    ParseHashRoute(Current(s.history))
  }

  /** `openCategory(category, updateURL)`. */
  function OpenCategory(s: Session, cat: Category, writeUrl: bool): (r: Session)
    requires Valid(s.history)
    ensures Valid(r.history)
    ensures r.view == s.view.(filtered := FilterByCategory(s.view.allImages, cat.category), galleryShown := true)
    ensures r.view.galleryShown
    ensures r.view.filtered == FilterByCategory(s.view.allImages, cat.category)
    ensures forall p :: p in r.view.filtered ==> p.category == cat.category
    ensures r.view.lightboxActive == s.view.lightboxActive && r.view.index == s.view.index
    ensures r.view.catalog == s.view.catalog && r.view.allImages == s.view.allImages
    ensures writeUrl ==> r.history == Push(s.history, CategoryHash(cat.category))
    ensures writeUrl ==> CurrentRoute(r) == Success(CategoryRoute(cat.category))
    ensures !writeUrl ==> r.history == s.history
  {
    var view := s.view.(filtered := FilterByCategory(s.view.allImages, cat.category), galleryShown := true);
    if writeUrl then
      CategoryRoundTrip(cat.category);
      Session(view, Push(s.history, CategoryHash(cat.category)))
    else Session(view, s.history)
  }

  /** `showCategoryView(updateURL)`: back to the category cards. */
  function ShowCategoryView(s: Session, writeUrl: bool): (r: Session)
    requires Valid(s.history)
    ensures Valid(r.history)
    ensures !r.view.galleryShown
    ensures r.view == s.view.(galleryShown := false)
    ensures writeUrl ==> r.history == Push(s.history, HomeHash)
    ensures writeUrl ==> CurrentRoute(r) == Success(Home)
    ensures !writeUrl ==> r.history == s.history
  {
    Session(s.view.(galleryShown := false), if writeUrl then Push(s.history, HomeHash) else s.history)
  }

  /** The image the lightbox shows. */
  function Shown(v: View): Photo
    requires 0 <= v.index < |v.filtered|
  {
    v.filtered[v.index]
  }

  /**
   * `updateLightboxImage(updateURLFlag, replaceState)`: writes the hash of the image at the
   * current index, replacing the current entry or pushing a new one.
   */
  function UpdateLightboxImage(s: Session, writeUrl: bool, replace: bool): (r: Session)
    requires Valid(s.history)
    requires 0 <= s.view.index < |s.view.filtered|
    ensures Valid(r.history) && r.view == s.view
    ensures writeUrl ==> CurrentRoute(r) == Success(ImageRoute(Shown(s.view).category, Shown(s.view).name))
    ensures writeUrl && replace ==> r.history == Replace(s.history, ImageHash(Shown(s.view).category, Shown(s.view).name))
    ensures writeUrl && !replace ==> r.history == Push(s.history, ImageHash(Shown(s.view).category, Shown(s.view).name))
    ensures !writeUrl ==> r.history == s.history
  {
    var img := Shown(s.view);
    if writeUrl then
      var hash := ImageHash(img.category, img.name);
      ImageRoundTrip(img.category, img.name);
      Session(s.view, if replace then Replace(s.history, hash) else Push(s.history, hash))
    else s
  }

  /**
   * `openLightbox(index, updateURL)`. The index must name a member of the selection: every
   * caller passes the position of a rendered item or a position found by lookup.
   */
  function OpenLightbox(s: Session, index: int, writeUrl: bool): (r: Session)
    requires Valid(s.history)
    requires 0 <= index < |s.view.filtered|
    ensures Valid(r.history)
    ensures r.view == s.view.(index := index, lightboxActive := true)
    ensures writeUrl ==> r.history == Push(s.history, ImageHash(s.view.filtered[index].category, s.view.filtered[index].name))
    ensures writeUrl ==> CurrentRoute(r) == Success(ImageRoute(s.view.filtered[index].category, s.view.filtered[index].name))
    ensures !writeUrl ==> r.history == s.history
  {
    var shown := UpdateLightboxImage(Session(s.view.(index := index), s.history), writeUrl, false);
    Session(shown.view.(lightboxActive := true), shown.history)
  }

  /**
   * `closeLightbox`: hides the lightbox and pushes the category hash of the image it showed,
   * so that closing never reveals an unrelated earlier entry. The gallery is left as it is.
   */
  function CloseLightbox(s: Session): (r: Session)
    requires Valid(s.history)
    ensures Valid(r.history)
    ensures r.view == s.view.(lightboxActive := false)
    ensures 0 <= s.view.index < |s.view.filtered| ==>
      r.history == Push(s.history, CategoryHash(Shown(s.view).category))
      && CurrentRoute(r) == Success(CategoryRoute(Shown(s.view).category))
    ensures !(0 <= s.view.index < |s.view.filtered|) ==> r.history == s.history
  {
    var view := s.view.(lightboxActive := false);
    if 0 <= s.view.index < |s.view.filtered| then
      var cat := Shown(s.view).category;
      CategoryRoundTrip(cat);
      Session(view, Push(s.history, CategoryHash(cat)))
    else Session(view, s.history)
  }

  /** `closeLightboxWithoutURLChange`. */
  function CloseLightboxQuietly(s: Session): (r: Session)
    ensures r.view == s.view.(lightboxActive := false) && r.history == s.history
  {
    Session(s.view.(lightboxActive := false), s.history)
  }

  /** `nextImage`: steps forward, wrapping, and replaces the current history entry. */
  function NextImage(s: Session): (r: Session)
    requires Valid(s.history)
    requires 0 <= s.view.index && 0 < |s.view.filtered|
    ensures Valid(r.history)
    ensures r.view == s.view.(index := NextIndex(s.view.index, |s.view.filtered|))
    ensures r.history == Replace(s.history, ImageHash(Shown(r.view).category, Shown(r.view).name))
    ensures CurrentRoute(r) == Success(ImageRoute(Shown(r.view).category, Shown(r.view).name))
  {
    var moved := s.(view := s.view.(index := NextIndex(s.view.index, |s.view.filtered|)));
    UpdateLightboxImage(moved, true, true)
  }

  /** `prevImage`: steps back, wrapping, and replaces the current history entry. */
  function PrevImage(s: Session): (r: Session)
    requires Valid(s.history)
    requires 0 <= s.view.index && 0 < |s.view.filtered|
    ensures Valid(r.history)
    ensures r.view == s.view.(index := PrevIndex(s.view.index, |s.view.filtered|))
    ensures r.history == Replace(s.history, ImageHash(Shown(r.view).category, Shown(r.view).name))
    ensures CurrentRoute(r) == Success(ImageRoute(Shown(r.view).category, Shown(r.view).name))
  {
    var moved := s.(view := s.view.(index := PrevIndex(s.view.index, |s.view.filtered|)));
    UpdateLightboxImage(moved, true, true)
  }

  /** `k` presses of "next" in a row. */
  function NextTimes(s: Session, k: nat): (r: Session)
    requires Valid(s.history)
    requires 0 <= s.view.index && 0 < |s.view.filtered|
    ensures Valid(r.history)
    ensures 0 <= r.view.index && |r.view.filtered| == |s.view.filtered|
    decreases k
  {
    if k == 0 then s else NextImage(NextTimes(s, k - 1))
  }

  /**
   * History hygiene: `k` presses of "next" leave the number of history entries and the
   * cursor as they were, and change nothing in the view but the index.
   */
  lemma {:induction false} NextTimesMoves(s: Session, k: nat)
    requires Valid(s.history)
    requires 0 <= s.view.index < |s.view.filtered|
    ensures NextTimes(s, k).view == s.view.(index := Advance(s.view.index, k, |s.view.filtered|))
    ensures NextTimes(s, k).history.cursor == s.history.cursor
    ensures |NextTimes(s, k).history.entries| == |s.history.entries|
    decreases k
  {
    if k > 0 {
      NextTimesMoves(s, k - 1);
      assert NextTimes(s, k) == NextImage(NextTimes(s, k - 1));
    }
  }

  /** Pressing "next" as many times as the selection holds returns to the starting image. */
  lemma NextCycle(s: Session)
    requires Valid(s.history)
    requires 0 <= s.view.index < |s.view.filtered|
    ensures NextTimes(s, |s.view.filtered|).view == s.view
  {
    var n := |s.view.filtered|;
    NextTimesMoves(s, n);
    AdvanceFullCircle(s.view.index, n);
  }

  /** `prevImage` undoes `nextImage`, and the other way round. */
  lemma PrevUndoesNext(s: Session)
    requires Valid(s.history)
    requires 0 <= s.view.index < |s.view.filtered|
    ensures PrevImage(NextImage(s)).view == s.view
    ensures NextImage(PrevImage(s)).view == s.view
  {
    StepsAreInverse(s.view.index, |s.view.filtered|);
  }

  /**
   * `handleRoute`: drives the view from the URL of the current entry, passing "do not write
   * the URL" to every transition, so that it never writes history.
   */
  function HandleRoute(s: Session): (r: Session)
    requires Valid(s.history)
    ensures r.history == s.history
    ensures r.view.catalog == s.view.catalog && r.view.cards == s.view.cards && r.view.allImages == s.view.allImages
    ensures Wf(s) ==> Wf(r)
    ensures CurrentRoute(s).Failure? ==> r == s
    ensures CurrentRoute(s) == Success(Home) ==>
      !r.view.lightboxActive && !r.view.galleryShown && r.view.filtered == s.view.filtered
    ensures CurrentRoute(s).Success? && CurrentRoute(s).value.CategoryRoute? ==>
      var id := CurrentRoute(s).value.categoryId;
      && (FindCategory(s.view.catalog, id).None? ==> r == s)
      && (FindCategory(s.view.catalog, id).Some? ==>
            r.view.galleryShown && !r.view.lightboxActive
            && r.view.filtered == FilterByCategory(s.view.allImages, id))
    ensures CurrentRoute(s).Success? && CurrentRoute(s).value.ImageRoute? ==>
      var route := CurrentRoute(s).value;
      FindImage(s.view.allImages, route.category, route.name).None? ==> r == s
  {
    match CurrentRoute(s)
    case Failure(_) => s
    case Success(Home) =>
      var s1 := if s.view.lightboxActive then CloseLightboxQuietly(s) else s;
      if s1.view.galleryShown then ShowCategoryView(s1, false) else s1
    case Success(CategoryRoute(id)) =>
      (match FindCategory(s.view.catalog, id)
       case None => s
       case Some(cat) =>
         var s1 := if s.view.lightboxActive then CloseLightboxQuietly(s) else s;
         OpenCategory(s1, cat, false))
    case Success(ImageRoute(category, name)) =>
      match FindImage(s.view.allImages, category, name)
      case None => s
      case Some(image) =>
        match FindCategory(s.view.catalog, image.category)
        case None => s
        case Some(imageCategory) =>
          var s1 := if !s.view.galleryShown then OpenCategory(s, imageCategory, false) else s;
          var k := IndexInFiltered(s1.view.filtered, image);
          if k != -1 then OpenLightbox(s1, k, false) else s1
  }

  /** No two photos of a selection share an identifier pair. */
  predicate UniquePairs(s: seq<Photo>) {
    forall k, l :: 0 <= k < l < |s| ==> !Matches(s[l], s[k].category, s[k].name)
  }

  /**
   * Deep-link resolution: a link to an image of the catalog, handled while the gallery is
   * hidden, first opens the image's category and then the lightbox on that image.
   */
  lemma DeepLinkOpensImage(s: Session, category: string, name: string)
    requires Wf(s)
    requires CurrentRoute(s) == Success(ImageRoute(category, name))
    requires !s.view.galleryShown
    requires FindImage(s.view.allImages, category, name).Some?
    ensures HandleRoute(s).view.galleryShown && HandleRoute(s).view.lightboxActive
    ensures HandleRoute(s).view.filtered == FilterByCategory(s.view.allImages, category)
    ensures 0 <= HandleRoute(s).view.index < |HandleRoute(s).view.filtered|
    ensures Matches(Shown(HandleRoute(s).view), category, name)
  {
    var image := FindImage(s.view.allImages, category, name).value;
    FlattenOwners(s.view.catalog, image);
    var cat := FindCategory(s.view.catalog, image.category).value;
    var s1 := OpenCategory(s, cat, false);
    assert image in s1.view.filtered;
  }

  /**
   * A link to an image that the selection on show does not hold opens nothing when the
   * gallery is visible: the category is not reopened and the index lookup gives -1.
   */
  lemma ImageOutsideShownGalleryIsIgnored(s: Session, category: string, name: string)
    requires Valid(s.history)
    requires CurrentRoute(s) == Success(ImageRoute(category, name))
    requires s.view.galleryShown
    requires forall p :: p in s.view.filtered ==> !Matches(p, category, name)
    ensures HandleRoute(s) == s
  {
    match FindImage(s.view.allImages, category, name)
    case None =>
    case Some(image) =>
      assert IndexInFiltered(s.view.filtered, image) == -1;
  }

  /**
   * A link to an image the shown selection holds opens the lightbox on the first photo of the
   * selection with that identifier pair, whichever photo the link came from.
   */
  lemma ImageLinkOpensFirstMatch(s: Session, category: string, name: string, p: Photo)
    requires Wf(s)
    requires CurrentRoute(s) == Success(ImageRoute(category, name))
    requires s.view.galleryShown
    requires p in s.view.filtered && Matches(p, category, name)
    ensures HandleRoute(s).view == s.view.(index := HandleRoute(s).view.index, lightboxActive := true)
    ensures 0 <= HandleRoute(s).view.index < |s.view.filtered|
    ensures Matches(s.view.filtered[HandleRoute(s).view.index], category, name)
    ensures forall k :: 0 <= k < HandleRoute(s).view.index ==> !Matches(s.view.filtered[k], category, name)
  {
    var image := FindImage(s.view.allImages, category, name).value;
    FlattenOwners(s.view.catalog, image);
    assert FindCategory(s.view.catalog, image.category).Some?;
    assert IndexInFiltered(s.view.filtered, image) != -1;
  }

  /** Handling the URL that opening a category wrote reproduces the view it produced. */
  lemma CategoryLinkRestoresView(s: Session, cat: Category)
    requires Wf(s) && cat in s.view.catalog
    requires !s.view.lightboxActive
    ensures HandleRoute(OpenCategory(s, cat, true)).view == OpenCategory(s, cat, true).view
  {
    var t := OpenCategory(s, cat, true);
    var found := FindCategory(s.view.catalog, cat.category);
    assert found.Some?;
  }

  /**
   * Handling the URL that opening the lightbox wrote reproduces the view it produced, when
   * the selection's identifier pairs are unique.
   */
  lemma ImageLinkRestoresView(s: Session, i: int)
    requires Wf(s) && s.view.galleryShown
    requires 0 <= i < |s.view.filtered|
    requires UniquePairs(s.view.filtered)
    ensures HandleRoute(OpenLightbox(s, i, true)).view == OpenLightbox(s, i, true).view
  {
    var t := OpenLightbox(s, i, true);
    var p := s.view.filtered[i];
    ImageLinkOpensFirstMatch(t, p.category, p.name, p);
    assert HandleRoute(t).view.index == i;
  }

  /** Why loading the page can fail. */
  datatype LoadError =
    | RenderFailed   // a category without images: `cat.images[0].path` throws while drawing its card
    | RouteFailed    // the initial hash holds a malformed escape: `decodeURIComponent` throws

  /**
   * The page after `init`: the session it leaves behind, and the error its `catch` branch
   * reported, if any. The `catch` only shows a message, so a failed load still leaves the
   * catalog, the selection, the cards drawn so far and every listener in place.
   */
  datatype Loaded = Loaded(session: Session, error: Option<LoadError>)

  /** Every category has an image to preview on its card. */
  predicate AllHaveImages(cats: seq<Category>) {
    forall c :: c in cats ==> |c.images| > 0
  }

  /**
   * The cards `renderCategoryCards` appends, given the catalog in drawing order: it stops at
   * the first category without images, whose card throws before it is appended.
   */
  function DrawnCards(sorted: seq<Category>): (r: seq<Category>)
    ensures r <= sorted
    ensures forall c :: c in r ==> |c.images| > 0
    ensures |r| < |sorted| ==> |sorted[|r|].images| == 0
    ensures r == sorted <==> AllHaveImages(sorted)
    decreases |sorted|
  {
    if |sorted| == 0 || |sorted[0].images| == 0 then []
    else
      assert sorted == [sorted[0]] + sorted[1..];
      [sorted[0]] + DrawnCards(sorted[1..])
  }

  /**
   * The session once the catalog is flattened, everything is selected and the cards are drawn,
   * before the route is handled. The cards follow `localeCompare`, modelled by `collate`.
   */
  function Loading(catalog: seq<Category>, hash: string, galleryShownAtLoad: bool,
                   collate: (string, string) -> bool): (s: Session)
    requires TotalPreorder(collate)
    ensures Wf(s) && !s.view.lightboxActive && s.history == Start(hash)
    ensures s.view.catalog == catalog && s.view.filtered == s.view.allImages == Flatten(catalog)
    ensures s.view.cards <= SortedCards(catalog, collate)
    ensures s.view.cards == DrawnCards(SortedCards(catalog, collate))
    ensures s.view.cards == SortedCards(catalog, collate) <==> AllHaveImages(catalog)
  {
    var sorted := SortedCards(catalog, collate);
    var cards := DrawnCards(sorted);
    assert forall c :: c in sorted <==> c in catalog by {
      assert forall c :: c in sorted <==> c in multiset(sorted);
      assert forall c :: c in catalog <==> c in multiset(catalog);
    }
    var allImages := Flatten(catalog);
    Session(View(catalog, cards, allImages, allImages, 0, galleryShownAtLoad, false), Start(hash))
  }

  /**
   * `init` once the catalog has been fetched and parsed: flattens it, selects everything,
   * draws the category cards and handles the URL the page was opened at. Both throws land in
   * the `catch` branch, which leaves the page as far as it got.
   */
  function Init(catalog: seq<Category>, hash: string, galleryShownAtLoad: bool,
                collate: (string, string) -> bool): (r: Loaded)
    requires TotalPreorder(collate)
    ensures Wf(r.session) && r.session.history == Start(hash)
    ensures r.session.view.catalog == catalog && r.session.view.allImages == Flatten(catalog)
    ensures r.error.None? <==> AllHaveImages(catalog) && ParseHashRoute(hash).Success?
    ensures r.error == Some(RenderFailed) <==> !AllHaveImages(catalog)
    ensures r.error != Some(RenderFailed) ==> r.session.view.cards == SortedCards(catalog, collate)
    ensures r.error.Some? ==> r.session == Loading(catalog, hash, galleryShownAtLoad, collate)
    ensures r.error.None? ==> r.session == HandleRoute(Loading(catalog, hash, galleryShownAtLoad, collate))
  {
    var s := Loading(catalog, hash, galleryShownAtLoad, collate);
    if !AllHaveImages(catalog) then Loaded(s, Some(RenderFailed))
    else if ParseHashRoute(hash).Failure? then Loaded(s, Some(RouteFailed))
    else Loaded(HandleRoute(s), None)
  }
}

=== FILE: wrappers.dfy ===
/** Failure-compatible wrappers shared by the router, the catalog store and the generator. */
module Wrappers {

  /** A value that may be absent: `Array.prototype.find` returning `undefined`, a dictionary miss. */
  datatype Option<+T> = None | Some(value: T)

  /** A computation that either produces a value or throws the given error. */
  datatype Result<+R, +E> = Success(value: R) | Failure(error: E)
}
